=== FILE: README.md ===
# Infectious disease on a grid, in Dafny

A model of the simulation core of `InfectiousDisease.py`: an SIR/SIRS epidemic played
out on an N x N toroidal grid of cells.

- **People.** Each person is Susceptible, Infected or Recovered. Infected and Recovered
  people carry a counter of the updates spent in that state.
- **Moves.** Each person moves by a move type:
  - a Random mover teleports to a random cell;
  - a Drunkard steps one cell along a random axis, or stays put;
  - an Isolate mover never moves.
- **Infected-neighbour field.** Each update first builds, from a snapshot of the
  population, the number of infected people in every cell's Moore neighbourhood of
  radius r. It does this by padding the grid with wrapped copies of its edges and
  summing windows.
- **Transitions.** Infected people advance their counter and recover at
  `Infected_Iters`. A Susceptible person with nI infected neighbours is infected when a
  uniform draw u satisfies u < nI * risk. Recovered people become Susceptible again at
  `Recovered_Iters`.
- **Frames.** One animation frame moves everybody, updates everybody, advances the frame
  counter, counts the population by state and paints the colour grid.

## How the model is organised

Modules are listed in dependency order.

- `Results` (results.dfy) holds the `Result` and `Option` wrappers and the errors the
  source can raise.
  - An undefined move type raises in `Move`.
  - An index outside `[-N, N)` raises `IndexError`.
  - A radius larger than N makes numpy refuse the slice copies of the padded grid.
  - An empty country makes the division by the population size raise.
- `Sums` (sums.dfy) holds finite sums over one and two indices and their algebra.
- `Torus` (torus.dfy) holds Euclidean remainder facts and toroidal distance.
  `Near(x, a, r, n)` means x is within r steps of a around a ring of n cells.
- `Persons` (persons.dfy) holds `Person`, `Person.__init__` (`NewPerson`),
  `Person.Move` (`Move`) and the reading of the move type string (`ParseMoveType`).
- `Countries` (countries.dfy) holds `Country`, `Add_Person` (`AddPerson`),
  `Move_People` (`MovePeople`) and the per-state head count `CountState`.
- `Neighbours` (neighbours.dfy) holds the field.
  - `Padded` is the padded grid, cell by cell, after the nine slice writes in source
    order (a later write wins).
  - `Window` is the window sum.
  - `InfectedNeighbors` is `GetInfectedNeighbors`, with its error cases.
  - `TorusSum` and `NearCount` state the documented intent: the number of infected
    people whose toroidal distance from the cell is at most r along both axes.
- `NeighbourLaws` (neighbour_laws.dfy) relates the field to that intent. It shows where
  the code keeps the intent, where it does not, and that the repaired layout always does.
- `Transitions` (transitions.dfy) holds `Update_People`.
  - `Updated` is a reference definition, person by person.
  - `UpdatePeople` is a method with the source's three passes over the snapshot. It is
    proved equal to `Updated`.
- `TransitionLaws` (transition_laws.dfy) holds what the draws decide for a Susceptible
  person, the end of an epidemic, and a worked scenario of the update order.
- `Simulations` (simulations.dfy) holds the first data point of `Run` (`Start`), one
  animation frame (`RunFrame`) and its tally. `Step` is the frame's change of state as
  a composition of `MovePeople` and `Updated`; `RunFrame` is proved to agree with it.

### Randomness

Every random value becomes a parameter.

- `AddPerson` receives the drawn row and column.
- `Move` receives a `MoveDraw`: a target cell, an axis in {0, 1} and a step in
  {-1, 0, 1}.
- `Updated` and `UpdatePeople` receive one real per Susceptible person, in list order.
  That is the order in which `random()` is called.

### Layouts

The field is computed in one of two layouts.

- `AsWritten` is the code as it stands.
- `Repaired` moves the copy of the first rows and columns to the outer padding and uses
  a window of width 2r + 1.

`UpdatePeople`, `Updated`, `Step` and `RunFrame` take the layout as a parameter. The laws
in `TransitionLaws` and the contracts of `Updated` and `RunFrame` hold for both layouts.
The laws in `NeighbourLaws` name the layout they are about: the counterexamples are about
`AsWritten` and the toroidal results about `Repaired`.

## Model

| member | source | states |
|---|---|---|
| Persons.NewPerson | InfectiousDisease.py:64-78 | The new person has the requested state, location and move type. An Infected or Recovered person starts its counter at 0. |
| Persons.Stagger | InfectiousDisease.py:101-107 | From a cell on the grid, the Drunkard's add-then-wrap is addition modulo N and stays on the grid. |
| Persons.ParseMoveType | InfectiousDisease.py:86-115 | The strings 'Random', 'Drunkard' and 'Isolate' select their rules, each exactly for its own string. Every other string is an undefined move type that keeps the string, so `Unknown` never holds a known name. |
| Persons.Move | InfectiousDisease.py:81-115 | Moving fails exactly for an undefined move type, and the error names it. State and move type never change. A Random mover lands on the drawn cell. An Isolate mover is unchanged. A Drunkard never fails and never changes the other axis. On the grid, it changes the drawn axis by the step modulo N and stays on the grid. |
| Countries.AddPerson | InfectiousDisease.py:139-157 | Exactly one person is appended and the earlier ones are unchanged. The new person has the requested state with counter 0, the given row and column where supplied, and otherwise the drawn row and column, which lie in [0, N), and the move type its string stands for, Random when none is given. Every move type stays canonical: an undefined string never spells a known rule. A country whose people are all on the grid stays so when the given coordinates are on the grid. |
| Countries.MoveAll | InfectiousDisease.py:160-163 | The pass fails exactly when some person has an undefined move type, and the error names one of them. Otherwise every person is replaced by the result of their own move. |
| Countries.MovePeople | InfectiousDisease.py:160-163 | Moving everybody keeps the grid size, the number and order of people, every state and every move type. It fails exactly on an undefined move type, keeps everybody on the grid and keeps every move type canonical. |
| Countries.CountState | InfectiousDisease.py:232-234 | The number of people in a state is at most the population. |
| Countries.CountStateZero | InfectiousDisease.py:232-234 | The head count of a state is zero exactly when nobody is in that state. |
| Countries.CountStateCons | InfectiousDisease.py:232-234 | Putting one more person in front of the list adds one to the count exactly when that person is in the state. |
| Countries.CountsCoverPopulation | InfectiousDisease.py:232-234 | The Susceptible, Infected and Recovered lists partition the population: their sizes add up to the number of people. |
| Countries.CountStateSameStates | InfectiousDisease.py:160-163 | Two populations with the same states person by person have the same head counts. This is why moving never changes how many draws the next update consumes. |
| Neighbours.InfectedOnly | InfectiousDisease.py:170 | The list holds exactly the people that are Infected, each as many times as in the population, and its length is the number of Infected people. |
| Neighbours.InfectedOnlyInOrder | InfectiousDisease.py:170 | The filter keeps list order: the infected person at position i is entry k of the filtered list, where k is the number of infected people before i. |
| Neighbours.GridAt | InfectiousDisease.py:174-179 | A cell of the count grid never holds more than the number of infected people. |
| NeighbourLaws.GridAtOccupied | InfectiousDisease.py:174-179 | A cell of the count grid is positive exactly when some infected person stands on it, negative indices read from the end as numpy does. |
| Neighbours.Padded | InfectiousDisease.py:182-214 | The padded grid is zero outside its (N + 2r)-square. `PaddedOnGrid` and `RepairedPaddedIsToroidal` state what the slice writes put inside it. |
| NeighbourLaws.WindowBound | InfectiousDisease.py:217-220 | A cell's field value is at most the window area times the number of infected people. |
| Neighbours.InfectedNeighbors | InfectiousDisease.py:165-222 | The field fails with IndexError exactly when an infected person stands outside `[-N, N)`. It fails with a shape error exactly when the radius exceeds N. Otherwise it is an N x N grid of non-negative counts. |
| NeighbourLaws.PaddedOnGrid | InfectiousDisease.py:185-200 | In both layouts, the first N rows and columns of the padded grid are the grid shifted by r with wrap-around. |
| NeighbourLaws.RepairedPaddedIsToroidal | InfectiousDisease.py:185-214 | With the copies of lines 194 and 200 moved to start at N + r, the whole padded grid is the toroidal extension of the grid. |
| NeighbourLaws.AsWrittenWindowLopsided | InfectiousDisease.py:217-220 | As written, away from the last r + 1 rows and columns, a cell's field value is the toroidal sum over an (r + 2)-square starting r cells up and left. For r = 1 this is the Moore square. For r > 1 it is not centred on the cell. |
| NeighbourLaws.RepairedWindowIsToroidal | InfectiousDisease.py:217-220 | With the repaired layout, every cell's value is the toroidal (2r + 1)-square sum centred on it. |
| NeighbourLaws.TorusSumCountsNear | InfectiousDisease.py:166-167 | The toroidal (2r + 1)-square sum counts each infected person within toroidal distance r on both axes exactly once. This is the Moore neighbourhood the docstring promises. |
| NeighbourLaws.AsWrittenRadiusOneCorrect | InfectiousDisease.py:165-222 | With radius 1 on a grid of side at least 3, the field as written equals the number of infected people in the toroidal Moore neighbourhood at every cell except the last two rows and the last two columns. |
| NeighbourLaws.RepairedCountsNear | InfectiousDisease.py:165-222 | The repaired field equals the toroidal Moore count at every cell, for every radius with 2r + 1 <= N. |
| NeighbourLaws.PressureLeaksTwoRowsUp | InfectiousDisease.py:194 | As written, one infected person at (0, 0) on a grid of side at least 4 gives cell (N-2, 0) a count of 1. That cell is two rows from the person, so its Moore count is 0. |
| NeighbourLaws.PressureLeaksTwoColumnsLeft | InfectiousDisease.py:200 | The same defect along columns: cell (0, N-2) gets a count of 1 and its Moore count is 0. |
| NeighbourLaws.LastRowUnseen | InfectiousDisease.py:191-194 | As written, with radius 1, an infected person anywhere in the last row gets a count of 0 at its own cell, where the Moore count is 1. |
| NeighbourLaws.WideRadiusMissesFarRow | InfectiousDisease.py:218-219 | As written, for radius r >= 2, an infected person r rows below (0, 0) is not counted at (0, 0). The Moore count and the repaired field are both 1 there. |
| NeighbourLaws.GridAtInfectedOnly | InfectiousDisease.py:170-179 | The count grid built from everybody equals the one built from the infected list. |
| NeighbourLaws.OnlyInfectedContribute | InfectiousDisease.py:170-179 | The whole result of the field, errors included, is the same when everybody who is not Infected is removed. |
| NeighbourLaws.NoInfectedNoPressure | InfectiousDisease.py:174-222 | With nobody infected and the radius at most N, the field is all zeros. |
| Transitions.AfterInfected | InfectiousDisease.py:240-244 | An Infected person keeps their place and move type. They become Recovered, with counter 0, exactly when the advanced counter reaches `Infected_Iters`; otherwise the counter rises by one. |
| Transitions.AfterSusceptible | InfectiousDisease.py:247-253 | A Susceptible person becomes Infected, with counter 0, exactly when the draw is below nI * risk; otherwise they are unchanged. |
| Transitions.AfterRecovered | InfectiousDisease.py:256-259 | A Recovered person keeps their place and move type. They become Susceptible exactly when the advanced counter reaches `Recovered_Iters`; otherwise the counter rises by one. |
| Transitions.PersonAfter | InfectiousDisease.py:240-259 | A person's update keeps their location and move type and makes at most one step of S -> I -> R -> S. An Infected counter rises by exactly one, and the person recovers with counter 0 exactly when it reaches `Infected_Iters`. A Recovered counter works the same way, returning the person to Susceptible at `Recovered_Iters`. A Susceptible person stays Susceptible or becomes Infected with counter 0. |
| Transitions.Updated | InfectiousDisease.py:225-259 | The update fails exactly when an infected person cannot index the grid, the radius exceeds N, or a Susceptible person cannot index the field. It cannot fail when everybody is on the grid and the radius is at most N. It keeps the grid size, the number of people and everybody being on the grid. With positive thresholds it keeps every counter below its threshold. |
| Transitions.InfectedPass | InfectiousDisease.py:240-244 | Every person Infected in the snapshot advances their counter and recovers with a fresh counter at `Infected_Iters`. Nobody else changes. |
| Transitions.SusceptiblePass | InfectiousDisease.py:247-253 | The pass fails with IndexError exactly when a Susceptible person of the snapshot stands outside `[-N, N)`. Otherwise each Susceptible person is decided by their own field value and by the draw numbered by how many Susceptible people precede them. Nobody else changes. |
| Transitions.RecoveredPass | InfectiousDisease.py:256-259 | Every person Recovered in the snapshot advances their counter and becomes Susceptible at `Recovered_Iters`. Nobody else changes. |
| Transitions.UpdatePeople | InfectiousDisease.py:225-259 | The three passes over the snapshot, with the field taken first, give exactly the person-by-person reference update `Updated`, errors included. |
| TransitionLaws.SusceptibleFate | InfectiousDisease.py:247-253 | With draws in [0, 1), a Susceptible person becomes Infected with counter 0 or stays Susceptible. A person with no infected neighbour is never infected. A person with nI * risk >= 1 always is. |
| TransitionLaws.ExtinctionIsFinal | InfectiousDisease.py:237-253 | Once nobody is Infected, nobody becomes Infected. |
| TransitionLaws.PressureTakenBeforeRecovery | InfectiousDisease.py:236-253 | A worked example of the update order: the field is computed before the Infected pass. On a 10 x 10 grid with radius 1 and risk 1, an Infected person at (5, 5) whose infection ends in this update still infects the Susceptible person at (5, 6), whatever the draw, in both layouts. In the as-written layout this does not carry over to every pair of neighbours: in the last row the field misses the person (`LastRowUnseen`). |
| Simulations.TallyOf | InfectiousDisease.py:350-352 | The three head counts of a data point add up to the population. |
| Simulations.Start | InfectiousDisease.py:327-330 | Before the first frame, `Run` fails on an empty country (the division by its size) and on a person outside `[-N, N)` (the first painting, lines 383-384). A non-empty country with everybody on the grid starts, and its first data point adds up to the population. |
| Simulations.Step | InfectiousDisease.py:340-360 | A frame's change of state is `MovePeople` followed by `Updated` on the moved country. It fails on an undefined move type, on the errors of the update, on an empty country and on a person the painting cannot place. It succeeds when all move types are known, the country is non-empty, everybody is on the grid and the radius fits. |
| Simulations.FindOffGrid | InfectiousDisease.py:359-360 | The painting loop reaches a person it cannot place exactly when somebody stands outside `[-N, N)`. |
| Simulations.RunFrame | InfectiousDisease.py:337-360 | The frame fails exactly when `Step` does, and on success its new country is the one `Step` computes. The frame counter rises by one and the parameters, grid and population size are kept. The tally is that of the new population and adds up to its size. Being on the grid and counters below positive thresholds are preserved. |

## Left out

- The plots and the animation of `Simulation.Run` are not modelled, nor the colours painted into the grid. They do not influence the state. Painting the grid (lines 359-360 and 383-384) is modelled only for the IndexError it raises (`PaintOffGrid`).
- `hospital_capacity` is not modelled. It is only drawn on the plot.
- The random number generator is not modelled. Its values are parameters, constrained to the ranges `randint`, `choice` and `random` produce.
- The scenario scripts and the `__main__` block are not modelled. They only build countries and call `Run`.
- The S, I and R series are modelled as head counts (`Tally`). The division by the population size is modelled only for the ZeroDivisionError of an empty country (`EmptyPopulation`); the quotients and any other floating-point arithmetic are left out. The field counts are integers, where numpy holds them as floats.
- The model covers only grids with N >= 1. `Country.__init__` accepts any N, but with N = 0 the slice copy of line 191 fails in numpy, so no update can run.
- A radius below 1 is not modelled (`RadiusAllowed`). With radius 0, `Grid[-0:, :]` is the whole grid and the copy of line 191 fails (for N = 1 numpy broadcasts there, and the copy of line 208 fails instead). Negative radii slice from the far end in ways the model does not follow.
- The model excludes N = 1 with radius greater than 1 (`RadiusAllowed`). There numpy broadcasts a single cell into a wider slice rather than refusing it.
- States other than 'S', 'I' and 'R' are not modelled. `Health` has exactly these three. `Update_People` would skip a person with any other state, but both paintings of the grid in `Run` (lines 360 and 384) look the state up in `StateDict` and raise KeyError.
- Persons.Move: the source's error branch builds its message from an undefined name, so Python raises NameError rather than the intended ValueError. The model records one error, `UnknownMoveType`, carrying the move type.
- Countries.MovePeople: when a move fails, the people moved before it keep their new locations in the source. The model returns only the error.
- Transitions.UpdatePeople: when a Susceptible person stands outside `[-N, N)`, the source has already updated the Infected people and the earlier Susceptible people before it raises. The model returns only the error.
- Simulations.RunFrame: when a frame raises, the source has already changed the country, and after line 346 the frame counter and the series. The model returns only the error.
- The driver's stopping policy is not modelled: `FuncAnimation` calls the frame until the infected share is 0 (lines 374-376). `RunFrame` models one frame; `ExtinctionIsFinal` shows that the infected count stays 0 after that point. The S and R series would still change, since Recovered people keep returning to Susceptible.

## Findings

| source | as written | input that shows it | evidently intended | confidence | as-written member | corrected member |
|---|---|---|---|---|---|---|
| InfectiousDisease.py:194,200 | The copies of the first r rows and columns are written at padded index N, inside the grid's own last rows and columns, instead of at N + r in the outer padding. | N = 4, radius 1, one infected person at (0, 0): the field is 1 at (2, 0) and (0, 2), which are two cells away from the person. An infected person in the last row gets 0 at its own cell. | The padded grid is the toroidal extension, so every cell counts the infected people of its Moore neighbourhood with wrap-around. | not executed | NeighbourLaws.PressureLeaksTwoRowsUp | NeighbourLaws.RepairedPaddedIsToroidal |
| InfectiousDisease.py:218-219 | The window loops run over `range(radius + 2)`, a square of side r + 2. | N = 5, radius 2, one infected person at (2, 0): the field at (0, 0) is 0, although the person is within distance 2. | The loops run over `range(2 * radius + 1)`, the (2r + 1)-square Moore neighbourhood. | not executed | NeighbourLaws.WideRadiusMissesFarRow | NeighbourLaws.RepairedCountsNear |

=== FILE: countries.dfy ===
/** The `Country` class: an N x N grid and the ordered list of people living on it,
    with `Add_Person` and `Move_People`, and the per-state head counts. */
module Countries {
  import opened Results
  import opened Persons

  datatype Country = Country(n: int, people: seq<Person>)

  /** Every person stands on a cell of the grid. */
  predicate WellPlaced(c: Country)
  {
    forall i :: 0 <= i < |c.people| ==> OnGrid(c.people[i], c.n)
  }

  /** Every move type was read from its string, so none is an `Unknown` known name. */
  predicate CanonicalMoves(c: Country)
  {
    forall i :: 0 <= i < |c.people| ==> Canonical(c.people[i].moveType)
  }

  /** `Country.Add_Person`. An omitted row or column is replaced by the drawn one
      (`randint(0, N-1)`), an omitted move type by 'Random', and the new person is appended
      with the move type its string stands for. */
  function AddPerson(c: Country, name: StateName, row: Option<int>, col: Option<int>,
                     moveType: Option<string>, drawnRow: int, drawnCol: int): (c': Country)
    requires row.None? ==> 0 <= drawnRow < c.n
    requires col.None? ==> 0 <= drawnCol < c.n
    ensures c'.n == c.n
    ensures |c'.people| == |c.people| + 1
    ensures c'.people[..|c.people|] == c.people
    ensures var p := c'.people[|c.people|];
      && NameOf(p.state) == name
      && (p.state.Infected? ==> p.state.infectedIters == 0)
      && (p.state.Recovered? ==> p.state.recoveredIters == 0)
      && (moveType.None? ==> p.moveType == Random)
      && (moveType.Some? ==> p.moveType == ParseMoveType(moveType.value))
      && (row.Some? ==> p.row == row.value)
      && (col.Some? ==> p.col == col.value)
      && (row.None? ==> p.row == drawnRow && 0 <= p.row < c.n)
      && (col.None? ==> p.col == drawnCol && 0 <= p.col < c.n)
    ensures WellPlaced(c) && (row.Some? ==> 0 <= row.value < c.n) && (col.Some? ==> 0 <= col.value < c.n)
      ==> WellPlaced(c')
    ensures CanonicalMoves(c) ==> CanonicalMoves(c')
  {
    var r := if row.None? then drawnRow else row.value;
    var k := if col.None? then drawnCol else col.value;
    var mt := ParseMoveType(if moveType.None? then "Random" else moveType.value);
    Country(c.n, c.people + [NewPerson(name, r, k, mt)])
  }

  /** Moves every person in list order; the first unknown move type aborts the pass. */
  function MoveAll(people: seq<Person>, n: int, draws: seq<MoveDraw>): (res: Result<seq<Person>, SimError>)
    requires |draws| == |people|
    requires forall i :: 0 <= i < |draws| ==> ValidDraw(draws[i], n)
    ensures res.Err? <==> exists i :: 0 <= i < |people| && people[i].moveType.Unknown?
    ensures res.Err? ==> exists i :: (0 <= i < |people| && people[i].moveType.Unknown?
                                       && res.error == UnknownMoveType(people[i].moveType.name))
    ensures res.Ok? ==> |res.value| == |people|
    ensures res.Ok? ==> forall i :: 0 <= i < |people| ==>
      Move(people[i], n, draws[i]) == Ok(res.value[i])
  {
    if |people| == 0 then Ok([])
    else
      match Move(people[0], n, draws[0])
      case Err(e) => Err(e)
      case Ok(q) =>
        match MoveAll(people[1..], n, draws[1..])
        case Err(e) =>
          var i :| 0 <= i < |people[1..]| && people[1..][i].moveType.Unknown?
            && e == UnknownMoveType(people[1..][i].moveType.name);
          assert people[i + 1] == people[1..][i];
          Err(e)
        case Ok(qs) =>
          assert forall i :: 1 <= i < |people| ==> people[i] == people[1..][i - 1];
          Ok([q] + qs)
  }

  /** `Country.Move_People`: every person moves by its own rule; states, move types, the
      grid size and the number of people are unchanged, and nobody leaves the grid. */
  function MovePeople(c: Country, draws: seq<MoveDraw>): (res: Result<Country, SimError>)
    requires |draws| == |c.people|
    requires forall i :: 0 <= i < |draws| ==> ValidDraw(draws[i], c.n)
    ensures res.Err? <==> exists i :: 0 <= i < |c.people| && c.people[i].moveType.Unknown?
    ensures res.Err? ==> exists i :: (0 <= i < |c.people| && c.people[i].moveType.Unknown?
                                       && res.error == UnknownMoveType(c.people[i].moveType.name))
    ensures res.Ok? ==> res.value.n == c.n && |res.value.people| == |c.people|
    ensures res.Ok? ==> forall i :: 0 <= i < |c.people| ==>
      && res.value.people[i].state == c.people[i].state
      && res.value.people[i].moveType == c.people[i].moveType
    ensures res.Ok? && WellPlaced(c) ==> WellPlaced(res.value)
    ensures res.Ok? && CanonicalMoves(c) ==> CanonicalMoves(res.value)
  {
    match MoveAll(c.people, c.n, draws)
    case Err(e) => Err(e)
    case Ok(ps) => Ok(Country(c.n, ps))
  }

  /** Number of people whose state has the given name; never more than the population.
      `CountStateZero` states when it is zero. */
  function CountState(people: seq<Person>, name: StateName): (k: nat)
    ensures k <= |people|
  {
    if |people| == 0 then 0
    else CountState(people[..|people| - 1], name) + (if NameOf(people[|people| - 1].state) == name then 1 else 0)
  }

  /** Nobody has the state exactly when its head count is zero. */
  lemma {:induction false} CountStateZero(people: seq<Person>, name: StateName)
    ensures CountState(people, name) == 0 <==> forall i :: 0 <= i < |people| ==> NameOf(people[i].state) != name
  {
    if |people| > 0 {
      var init := people[..|people| - 1];
      CountStateZero(init, name);
      assert forall i :: 0 <= i < |init| ==> init[i] == people[i];
    }
  }

  /** Counting a list with one more person in front adds one exactly when that person has
      the state. */
  lemma {:induction false} CountStateCons(p: Person, ps: seq<Person>, name: StateName)
    ensures CountState([p] + ps, name) == (if NameOf(p.state) == name then 1 else 0) + CountState(ps, name)
  {
    if |ps| > 0 {
      var init := ps[..|ps| - 1];
      assert ([p] + ps)[..|ps|] == [p] + init;
      CountStateCons(p, init, name);
    } else {
      assert ([p] + ps)[..0] == [];
    }
  }

  /** The same for a prefix of a list: the head, then a prefix of the tail. */
  lemma CountStatePrefixCons(people: seq<Person>, i: int, name: StateName)
    requires 0 < i <= |people|
    ensures CountState(people[..i], name)
         == (if NameOf(people[0].state) == name then 1 else 0) + CountState(people[1..][..i - 1], name)
  {
    assert people[..i] == [people[0]] + people[1..][..i - 1];
    CountStateCons(people[0], people[1..][..i - 1], name);
  }

  /** Counting one more person adds one exactly when that person has the state. */
  lemma CountStateStep(people: seq<Person>, i: nat, name: StateName)
    requires i < |people|
    ensures CountState(people[..i + 1], name) ==
      CountState(people[..i], name) + (if NameOf(people[i].state) == name then 1 else 0)
  {
    assert people[..i + 1][..i] == people[..i];
  }

  /** A prefix that stops before a person in the given state has fewer such people
      than the whole list. */
  lemma {:induction false} CountStatePrefix(people: seq<Person>, i: nat, name: StateName)
    requires i < |people| && NameOf(people[i].state) == name
    ensures CountState(people[..i], name) < CountState(people, name)
  {
    var j := i + 1;
    CountStateStep(people, i, name);
    while j < |people|
      invariant i < j <= |people|
      invariant CountState(people[..i], name) < CountState(people[..j], name)
    {
      CountStateStep(people, j, name);
      j := j + 1;
    }
    assert people[..|people|] == people;
  }

  /** The three head counts add up to the population size. */
  lemma {:induction false} CountsCoverPopulation(people: seq<Person>)
    ensures CountState(people, S) + CountState(people, I) + CountState(people, R) == |people|
  {
    if |people| > 0 {
      CountsCoverPopulation(people[..|people| - 1]);
    }
  }

  /** Head counts depend only on the states, so they survive anything that keeps states. */
  lemma {:induction false} CountStateSameStates(ps: seq<Person>, qs: seq<Person>, name: StateName)
    requires |ps| == |qs|
    requires forall i :: 0 <= i < |ps| ==> ps[i].state == qs[i].state
    ensures CountState(ps, name) == CountState(qs, name)
  {
    if |ps| > 0 {
      CountStateSameStates(ps[..|ps| - 1], qs[..|qs| - 1], name);
    }
  }
}

=== FILE: neighbour_laws.dfy ===
/** What the infected-neighbour field computes: where the padded grid is the toroidal
    copy of the count grid, what the windows add up to, and how far that is from the
    documented Moore count. */
module NeighbourLaws {
  import opened Results
  import opened Sums
  import opened Torus
  import opened Persons
  import opened Countries
  import opened Neighbours

  /** Every infected person stands on a cell of the grid. */
  predicate InfectedOnGrid(people: seq<Person>, n: int)
  {
    forall i :: 0 <= i < |people| && people[i].state.Infected? ==> OnGrid(people[i], n)
  }

  /** Inside the original n x n block, either layout holds the grid shifted by r around
      the torus: the padding the source writes is only wrong outside that block. */
  lemma PaddedOnGrid(people: seq<Person>, n: int, r: int, layout: Layout, i: int, j: int)
    requires 1 <= r <= n && 0 <= i < n && 0 <= j < n
    ensures Padded(people, n, r, layout, i, j) == GridAt(people, n, (i - r) % n, (j - r) % n)
  {
    ModNear(i - r, n);
    ModNear(j - r, n);
  }

  /** With the repaired layout the whole padded grid is the toroidal extension. */
  lemma RepairedPaddedIsToroidal(people: seq<Person>, n: int, r: int, i: int, j: int)
    requires 1 <= r <= n && 0 <= i < n + 2 * r && 0 <= j < n + 2 * r
    ensures Padded(people, n, r, Repaired, i, j) == GridAt(people, n, (i - r) % n, (j - r) % n)
  {
    ModNear(i - r, n);
    ModNear(j - r, n);
  }

  /** As written, away from the last r + 1 rows and columns, the window sums the grid rows
      a - r .. a + 1 and columns b - r .. b + 1: r cells before the centre but only one after. */
  lemma AsWrittenWindowLopsided(people: seq<Person>, n: int, r: int, a: int, b: int)
    requires 1 <= r && r + 2 <= n
    requires 0 <= a <= n - r - 2 && 0 <= b <= n - r - 2
    ensures Window(people, n, r, AsWritten, a, b) == TorusSum(people, n, r, a, b, r + 2)
  {
    var w := r + 2;
    var f := (i, j) => Padded(people, n, r, AsWritten, a + i, b + j);
    var g := (k, l) => GridAt(people, n, (a + k - r) % n, (b + l - r) % n);
    forall i, j | 0 <= i < w && 0 <= j < w
      ensures f(i, j) == g(i, j)
    {
      PaddedOnGrid(people, n, r, AsWritten, a + i, b + j);
    }
    Sum2Ext(w, w, f, g);
  }

  /** With the repaired layout every window is the toroidal (2r + 1) x (2r + 1) sum. */
  lemma RepairedWindowIsToroidal(people: seq<Person>, n: int, r: int, a: int, b: int)
    requires 1 <= r <= n && 0 <= a < n && 0 <= b < n
    ensures Window(people, n, r, Repaired, a, b) == TorusSum(people, n, r, a, b, 2 * r + 1)
  {
    var w := 2 * r + 1;
    var f := (i, j) => Padded(people, n, r, Repaired, a + i, b + j);
    var g := (k, l) => GridAt(people, n, (a + k - r) % n, (b + l - r) % n);
    forall i, j | 0 <= i < w && 0 <= j < w
      ensures f(i, j) == g(i, j)
    {
      RepairedPaddedIsToroidal(people, n, r, a + i, b + j);
    }
    Sum2Ext(w, w, f, g);
  }

  /** One person's share of the Moore sum: one if Infected and within r of (a, b). */
  lemma OnePersonTorusSum(p: Person, n: int, r: int, a: int, b: int)
    requires r >= 0 && 2 * r + 1 <= n
    requires p.state.Infected? ==> OnGrid(p, n)
    ensures Sum2(2 * r + 1, 2 * r + 1, (k, l) => Mark(p, n, (a + k - r) % n, (b + l - r) % n))
         == (if p.state.Infected? && Near(p.row, a, r, n) && Near(p.col, b, r, n) then 1 else 0)
  {
    var w := 2 * r + 1;
    var f := (k, l) => Mark(p, n, (a + k - r) % n, (b + l - r) % n);
    if p.state.Infected? {
      var dr, dc := (p.row - a + r) % n, (p.col - b + r) % n;
      forall k, l | 0 <= k < w && 0 <= l < w
        ensures f(k, l) == (if k == dr && l == dc then 1 else 0)
      {
        assert f(k, l) == Mark(p, n, (a + k - r) % n, (b + l - r) % n);
        OffsetHit(a, k, r, p.row, n);
        OffsetHit(b, l, r, p.col, n);
      }
      Sum2Point(w, w, f, dr, dc);
      NearIffOffset(p.row, a, r, n);
      NearIffOffset(p.col, b, r, n);
    } else {
      forall k, l | 0 <= k < w && 0 <= l < w
        ensures f(k, l) == 0
      {
        assert f(k, l) == Mark(p, n, (a + k - r) % n, (b + l - r) % n);
      }
      Sum2Zero(w, w, f);
    }
  }

  /** The Moore sum is additive over the people: the first person's share plus the rest's. */
  lemma TorusSumSplit(people: seq<Person>, n: int, r: int, a: int, b: int, w: nat)
    requires n > 0 && |people| > 0
    ensures TorusSum(people, n, r, a, b, w)
         == Sum2(w, w, (k, l) => Mark(people[0], n, (a + k - r) % n, (b + l - r) % n))
            + TorusSum(people[1..], n, r, a, b, w)
  {
    var all := (k, l) => GridAt(people, n, (a + k - r) % n, (b + l - r) % n);
    var mine := (k, l) => Mark(people[0], n, (a + k - r) % n, (b + l - r) % n);
    var others := (k, l) => GridAt(people[1..], n, (a + k - r) % n, (b + l - r) % n);
    forall k, l | 0 <= k < w && 0 <= l < w
      ensures all(k, l) == mine(k, l) + others(k, l)
    {
      var x, y := (a + k - r) % n, (b + l - r) % n;
      assert all(k, l) == GridAt(people, n, x, y);
      assert GridAt(people, n, x, y) == Mark(people[0], n, x, y) + GridAt(people[1..], n, x, y);
    }
    Sum2Add(w, w, mine, others, all);
  }

  lemma TorusSumEmpty(people: seq<Person>, n: int, r: int, a: int, b: int, w: nat)
    requires n > 0 && |people| == 0
    ensures TorusSum(people, n, r, a, b, w) == 0
  {
    var all := (k, l) => GridAt(people, n, (a + k - r) % n, (b + l - r) % n);
    forall k, l | 0 <= k < w && 0 <= l < w
      ensures all(k, l) == 0
    {
      assert all(k, l) == GridAt(people, n, (a + k - r) % n, (b + l - r) % n);
    }
    Sum2Zero(w, w, all);
  }

  /** When the window is no wider than the grid, the toroidal (2r + 1)-window sum of the
      count grid is the number of infected people within toroidal distance r. */
  lemma {:induction false} TorusSumCountsNear(people: seq<Person>, n: int, r: int, a: int, b: int)
    requires r >= 0 && 2 * r + 1 <= n
    requires InfectedOnGrid(people, n)
    ensures TorusSum(people, n, r, a, b, 2 * r + 1) == NearCount(people, n, r, a, b)
  {
    if |people| == 0 {
      TorusSumEmpty(people, n, r, a, b, 2 * r + 1);
    } else {
      var rest := people[1..];
      assert InfectedOnGrid(rest, n) by {
        forall i | 0 <= i < |rest| && rest[i].state.Infected?
          ensures OnGrid(rest[i], n)
        {
          assert rest[i] == people[i + 1];
        }
      }
      TorusSumSplit(people, n, r, a, b, 2 * r + 1);
      TorusSumCountsNear(rest, n, r, a, b);
      OnePersonTorusSum(people[0], n, r, a, b);
    }
  }

  lemma InfectedOnGridIndexable(people: seq<Person>, n: int)
    requires InfectedOnGrid(people, n)
    ensures !InfectedOffGrid(people, n)
  {
  }

  /** The docstring's promise, where the code keeps it: for radius 1 on a grid of side at
      least 3, at every cell (a, b) with a, b <= N - 3 the field is the number of infected
      people within toroidal Chebyshev distance 1, the cell itself included. */
  lemma {:induction false} AsWrittenRadiusOneCorrect(c: Country, a: int, b: int)
    requires c.n >= 3 && InfectedOnGrid(c.people, c.n)
    requires 0 <= a <= c.n - 3 && 0 <= b <= c.n - 3
    ensures InfectedNeighbors(c, 1, AsWritten).Ok?
    ensures InfectedNeighbors(c, 1, AsWritten).value[a][b] == NearCount(c.people, c.n, 1, a, b)
  {
    InfectedOnGridIndexable(c.people, c.n);
    AsWrittenWindowLopsided(c.people, c.n, 1, a, b);
    TorusSumCountsNear(c.people, c.n, 1, a, b);
  }

  /** The repaired field keeps the docstring's promise at every cell and for every radius
      whose window fits in the grid. */
  lemma RepairedCountsNear(c: Country, r: int)
    requires 1 <= r && 2 * r + 1 <= c.n && InfectedOnGrid(c.people, c.n)
    ensures InfectedNeighbors(c, r, Repaired).Ok?
    ensures forall a, b :: 0 <= a < c.n && 0 <= b < c.n ==>
      InfectedNeighbors(c, r, Repaired).value[a][b] == NearCount(c.people, c.n, r, a, b)
  {
    InfectedOnGridIndexable(c.people, c.n);
    forall a, b | 0 <= a < c.n && 0 <= b < c.n
      ensures InfectedNeighbors(c, r, Repaired).value[a][b] == NearCount(c.people, c.n, r, a, b)
    {
      RepairedWindowIsToroidal(c.people, c.n, r, a, b);
      TorusSumCountsNear(c.people, c.n, r, a, b);
    }
  }

  /** The count grid of a single person is that person's mark. */
  lemma GridAtSingle(p: Person, n: int, x: int, y: int)
    ensures GridAt([p], n, x, y) == Mark(p, n, x, y)
  {
    assert [p][1..] == [];
  }

  /** With nobody infected off the grid and a radius that fits, the field holds the
      window sums. */
  lemma FieldIsWindow(c: Country, r: int, layout: Layout, a: int, b: int)
    requires RadiusAllowed(r, c.n) && r <= c.n && !InfectedOffGrid(c.people, c.n)
    requires 0 <= a < c.n && 0 <= b < c.n
    ensures InfectedNeighbors(c, r, layout).Ok?
    ensures InfectedNeighbors(c, r, layout).value[a][b] == Window(c.people, c.n, r, layout, a, b)
  {
  }

  /** A lone person is counted exactly when Infected and near on both axes. */
  lemma LoneNearCount(p: Person, n: int, r: int, a: int, b: int)
    requires n > 0
    ensures NearCount([p], n, r, a, b)
      == (if p.state.Infected? && Near(p.row, a, r, n) && Near(p.col, b, r, n) then 1 else 0)
  {
    assert [p][1..] == [];
  }

  /** One cell of the window of (N-2, 0) in `PressureLeaksTwoRowsUp`. */
  lemma RowsUpCell(n: int, mt: MoveType, i: int, j: int)
    requires n >= 4 && 0 <= i < 3 && 0 <= j < 3
    ensures Padded([Person(Infected(0), 0, 0, mt)], n, 1, AsWritten, n - 2 + i, j)
      == (if i == 2 && j == 1 then 1 else 0)
  {
    var people := [Person(Infected(0), 0, 0, mt)];
    var v := Padded(people, n, 1, AsWritten, n - 2 + i, j);
    if j == 0 {
      assert v == GridAt(people, n, n - 3 + i, n - 1);
      GridAtSingle(people[0], n, n - 3 + i, n - 1);
    } else if i < 2 {
      assert v == GridAt(people, n, n - 3 + i, j - 1);
      GridAtSingle(people[0], n, n - 3 + i, j - 1);
    } else {
      assert v == GridAt(people, n, 0, j - 1);
      GridAtSingle(people[0], n, 0, j - 1);
    }
  }

  /** The window of (N-2, 0) in `PressureLeaksTwoRowsUp` adds up to one. */
  lemma RowsUpWindow(n: int, mt: MoveType)
    requires n >= 4
    ensures Window([Person(Infected(0), 0, 0, mt)], n, 1, AsWritten, n - 2, 0) == 1
  {
    var people := [Person(Infected(0), 0, 0, mt)];
    var f := (i, j) => Padded(people, n, 1, AsWritten, n - 2 + i, 0 + j);
    forall i, j | 0 <= i < 3 && 0 <= j < 3
      ensures f(i, j) == (if i == 2 && j == 1 then 1 else 0)
    {
      assert f(i, j) == Padded(people, n, 1, AsWritten, n - 2 + i, j);
      RowsUpCell(n, mt, i, j);
    }
    Sum2Point(3, 3, f, 2, 1);
    assert Window(people, n, 1, AsWritten, n - 2, 0) == Sum2(3, 3, f);
  }

  /** As written, lines 194 and 200 copy the first rows and columns over the grid's own
      last row and column (row and column N of the padded grid) instead of into the
      bottom and right padding. With radius 1, a lone infected person at (0, 0) thus puts
      pressure 1 on cell (N-2, 0), two rows away from it, where the toroidal count is 0. */
  lemma PressureLeaksTwoRowsUp(n: int, mt: MoveType)
    requires n >= 4
    ensures var c := Country(n, [Person(Infected(0), 0, 0, mt)]);
      && InfectedNeighbors(c, 1, AsWritten).Ok?
      && InfectedNeighbors(c, 1, AsWritten).value[n - 2][0] == 1
      && NearCount(c.people, n, 1, n - 2, 0) == 0
  {
    var people := [Person(Infected(0), 0, 0, mt)];
    RowsUpWindow(n, mt);
    assert !InfectedOffGrid(people, n);
    FieldIsWindow(Country(n, people), 1, AsWritten, n - 2, 0);
    LoneNearCount(people[0], n, 1, n - 2, 0);
    ModNear(0 - (n - 2), n);
    ModNear(n - 2 - 0, n);
    assert Torus.TorusDist(0, n - 2, n) == 2;
  }

  /** The window of a last-row cell in `LastRowUnseen` adds up to zero. */
  lemma LastRowWindow(n: int, col: int, mt: MoveType)
    requires n >= 3 && 0 <= col < n
    ensures Window([Person(Infected(0), n - 1, col, mt)], n, 1, AsWritten, n - 1, col) == 0
  {
    var people := [Person(Infected(0), n - 1, col, mt)];
    var f := (i, j) => Padded(people, n, 1, AsWritten, n - 1 + i, col + j);
    forall x, y
      ensures GridAt(people, n, x, y) == Mark(people[0], n, x, y)
    {
      GridAtSingle(people[0], n, x, y);
    }
    forall i, j | 0 <= i < 3 && 0 <= j < 3
      ensures f(i, j) == 0
    {
      assert f(i, j) == Padded(people, n, 1, AsWritten, n - 1 + i, col + j);
    }
    Sum2Zero(3, 3, f);
    assert Window(people, n, 1, AsWritten, n - 1, col) == Sum2(3, 3, f);
  }

  /** As written, with radius 1 (N >= 3), a lone infected person anywhere in the last row
      puts no pressure on its own cell: that row never enters the window of its own cell. */
  lemma LastRowUnseen(n: int, col: int, mt: MoveType)
    requires n >= 3 && 0 <= col < n
    ensures var c := Country(n, [Person(Infected(0), n - 1, col, mt)]);
      && InfectedNeighbors(c, 1, AsWritten).Ok?
      && InfectedNeighbors(c, 1, AsWritten).value[n - 1][col] == 0
      && NearCount(c.people, n, 1, n - 1, col) == 1
  {
    var people := [Person(Infected(0), n - 1, col, mt)];
    LastRowWindow(n, col, mt);
    assert !InfectedOffGrid(people, n);
    FieldIsWindow(Country(n, people), 1, AsWritten, n - 1, col);
    LoneNearCount(people[0], n, 1, n - 1, col);
    ModNear(0, n);
    assert Torus.TorusDist(n - 1, n - 1, n) == 0 && Torus.TorusDist(col, col, n) == 0;
  }

  /** The window of (0, 0) in `WideRadiusMissesFarRow` adds up to zero. */
  lemma FarRowWindow(n: int, r: int, mt: MoveType)
    requires r >= 2 && 2 * r + 1 <= n
    ensures Window([Person(Infected(0), r, 0, mt)], n, r, AsWritten, 0, 0) == 0
  {
    var people := [Person(Infected(0), r, 0, mt)];
    AsWrittenWindowLopsided(people, n, r, 0, 0);
    var g := (k, l) => GridAt(people, n, (0 + k - r) % n, (0 + l - r) % n);
    forall k, l | 0 <= k < r + 2 && 0 <= l < r + 2
      ensures g(k, l) == 0
    {
      ModNear(k - r, n);
      assert g(k, l) == GridAt(people, n, (k - r) % n, (l - r) % n);
    }
    Sum2Zero(r + 2, r + 2, g);
    assert TorusSum(people, n, r, 0, 0, r + 2) == Sum2(r + 2, r + 2, g);
  }

  /** As written, the window `range(radius + 2)` is 2r + 1 wide only for r = 1. For r >= 2
      an infected person r rows below a cell is within its Moore neighbourhood but outside
      the window, so the field misses it; the repaired field counts it. */
  lemma WideRadiusMissesFarRow(n: int, r: int, mt: MoveType)
    requires r >= 2 && 2 * r + 1 <= n
    ensures var c := Country(n, [Person(Infected(0), r, 0, mt)]);
      && InfectedNeighbors(c, r, AsWritten).Ok?
      && InfectedNeighbors(c, r, AsWritten).value[0][0] == 0
      && NearCount(c.people, n, r, 0, 0) == 1
      && InfectedNeighbors(c, r, Repaired).value[0][0] == 1
  {
    var c := Country(n, [Person(Infected(0), r, 0, mt)]);
    FarRowWindow(n, r, mt);
    assert !InfectedOffGrid(c.people, n);
    FieldIsWindow(c, r, AsWritten, 0, 0);
    LoneNearCount(c.people[0], n, r, 0, 0);
    ModNear(r, n);
    ModNear(-r, n);
    ModNear(0, n);
    assert Torus.TorusDist(r, 0, n) == r && Torus.TorusDist(0, 0, n) == 0;
    RepairedCountsNear(c, r);
  }

  /** One cell of the window of (0, N-2) in `PressureLeaksTwoColumnsLeft`. */
  lemma ColumnsLeftCell(n: int, mt: MoveType, i: int, j: int)
    requires n >= 4 && 0 <= i < 3 && 0 <= j < 3
    ensures Padded([Person(Infected(0), 0, 0, mt)], n, 1, AsWritten, i, n - 2 + j)
      == (if i == 1 && j == 2 then 1 else 0)
  {
    var people := [Person(Infected(0), 0, 0, mt)];
    var v := Padded(people, n, 1, AsWritten, i, n - 2 + j);
    if i == 0 {
      assert v == GridAt(people, n, n - 1, n - 3 + j);
      GridAtSingle(people[0], n, n - 1, n - 3 + j);
    } else if j < 2 {
      assert v == GridAt(people, n, i - 1, n - 3 + j);
      GridAtSingle(people[0], n, i - 1, n - 3 + j);
    } else {
      assert v == GridAt(people, n, i - 1, 0);
      GridAtSingle(people[0], n, i - 1, 0);
    }
  }

  /** The window of (0, N-2) in `PressureLeaksTwoColumnsLeft` adds up to one. */
  lemma ColumnsLeftWindow(n: int, mt: MoveType)
    requires n >= 4
    ensures Window([Person(Infected(0), 0, 0, mt)], n, 1, AsWritten, 0, n - 2) == 1
  {
    var people := [Person(Infected(0), 0, 0, mt)];
    var f := (i, j) => Padded(people, n, 1, AsWritten, 0 + i, n - 2 + j);
    forall i, j | 0 <= i < 3 && 0 <= j < 3
      ensures f(i, j) == (if i == 1 && j == 2 then 1 else 0)
    {
      assert f(i, j) == Padded(people, n, 1, AsWritten, i, n - 2 + j);
      ColumnsLeftCell(n, mt, i, j);
    }
    Sum2Point(3, 3, f, 1, 2);
    assert Window(people, n, 1, AsWritten, 0, n - 2) == Sum2(3, 3, f);
  }

  /** The same defect along columns (line 200): a lone infected person at (0, 0) puts
      pressure 1 on cell (0, N-2). */
  lemma PressureLeaksTwoColumnsLeft(n: int, mt: MoveType)
    requires n >= 4
    ensures var c := Country(n, [Person(Infected(0), 0, 0, mt)]);
      && InfectedNeighbors(c, 1, AsWritten).Ok?
      && InfectedNeighbors(c, 1, AsWritten).value[0][n - 2] == 1
      && NearCount(c.people, n, 1, 0, n - 2) == 0
  {
    var people := [Person(Infected(0), 0, 0, mt)];
    ColumnsLeftWindow(n, mt);
    assert !InfectedOffGrid(people, n);
    FieldIsWindow(Country(n, people), 1, AsWritten, 0, n - 2);
    LoneNearCount(people[0], n, 1, 0, n - 2);
    ModNear(0 - (n - 2), n);
    ModNear(n - 2 - 0, n);
    assert Torus.TorusDist(0, n - 2, n) == 2;
  }

  /** The count grid only sees infected people. */
  lemma {:induction false} GridAtInfectedOnly(people: seq<Person>, n: int, x: int, y: int)
    ensures GridAt(people, n, x, y) == GridAt(InfectedOnly(people), n, x, y)
  {
    if |people| > 0 {
      GridAtInfectedOnly(people[1..], n, x, y);
      if people[0].state.Infected? {
        var qs := InfectedOnly(people);
        assert qs == [people[0]] + InfectedOnly(people[1..]);
        assert qs[1..] == InfectedOnly(people[1..]);
      }
    }
  }

  /** A cell of the count grid is occupied exactly when somebody infected stands on it
      (after numpy's reading of negative indices). */
  lemma {:induction false} GridAtOccupied(people: seq<Person>, n: int, x: int, y: int)
    ensures GridAt(people, n, x, y) > 0 <==> exists k :: 0 <= k < |people| && Mark(people[k], n, x, y) == 1
  {
    if |people| > 0 {
      var tail := people[1..];
      GridAtOccupied(tail, n, x, y);
      if GridAt(tail, n, x, y) > 0 {
        var k :| 0 <= k < |tail| && Mark(tail[k], n, x, y) == 1;
        assert people[k + 1] == tail[k];
      }
      if exists k :: 0 <= k < |people| && Mark(people[k], n, x, y) == 1 {
        var k :| 0 <= k < |people| && Mark(people[k], n, x, y) == 1;
        if k > 0 {
          assert tail[k - 1] == people[k];
        }
      }
    }
  }

  /** Every padded cell holds a copy of some count-grid cell, or zero. */
  lemma PaddedBound(people: seq<Person>, n: int, r: int, layout: Layout, i: int, j: int)
    ensures Padded(people, n, r, layout, i, j) <= CountState(people, I)
  {
  }

  /** A cell's field value is at most the window area times the number of infected people:
      each window cell holds at most everybody infected. */
  lemma WindowBound(people: seq<Person>, n: int, r: nat, layout: Layout, a: int, b: int)
    ensures Window(people, n, r, layout, a, b) <= Width(layout, r) * (Width(layout, r) * CountState(people, I))
  {
    var w := Width(layout, r);
    var f := (i, j) => Padded(people, n, r, layout, a + i, b + j);
    forall i, j | 0 <= i < w && 0 <= j < w
      ensures f(i, j) <= CountState(people, I)
    {
      PaddedBound(people, n, r, layout, a + i, b + j);
    }
    Sum2Bound(w, w, f, CountState(people, I));
  }

  /** The padded grid depends on the people only through the count grid. */
  lemma PaddedSameGrid(ps: seq<Person>, qs: seq<Person>, n: int, r: int, layout: Layout, i: int, j: int)
    requires forall x, y :: GridAt(ps, n, x, y) == GridAt(qs, n, x, y)
    ensures Padded(ps, n, r, layout, i, j) == Padded(qs, n, r, layout, i, j)
  {
  }

  /** The window sums depend on the people only through the count grid. */
  lemma WindowSameGrid(ps: seq<Person>, qs: seq<Person>, n: int, r: nat, layout: Layout, a: int, b: int)
    requires forall x, y :: GridAt(ps, n, x, y) == GridAt(qs, n, x, y)
    ensures Window(ps, n, r, layout, a, b) == Window(qs, n, r, layout, a, b)
  {
    var w := Width(layout, r);
    var f := (i, j) => Padded(ps, n, r, layout, a + i, b + j);
    var g := (i, j) => Padded(qs, n, r, layout, a + i, b + j);
    forall i, j | 0 <= i < w && 0 <= j < w
      ensures f(i, j) == g(i, j)
    {
      PaddedSameGrid(ps, qs, n, r, layout, a + i, b + j);
    }
    Sum2Ext(w, w, f, g);
  }

  /** Filtering out the non-infected people keeps whether an infected person is off grid. */
  lemma OffGridInfectedOnly(c: Country)
    ensures InfectedOffGrid(c.people, c.n) <==> InfectedOffGrid(InfectedOnly(c.people), c.n)
  {
    var qs := InfectedOnly(c.people);
    if InfectedOffGrid(qs, c.n) {
      var i :| 0 <= i < |qs| && qs[i].state.Infected? && !Indexable(qs[i], c.n);
      assert qs[i] in c.people;
    }
    if InfectedOffGrid(c.people, c.n) {
      var i :| 0 <= i < |c.people| && c.people[i].state.Infected? && !Indexable(c.people[i], c.n);
      assert c.people[i] in qs;
    }
  }

  /** People who are not Infected never contribute: the field, and whether it can be
      computed at all, is the same as for the infected people alone. */
  lemma OnlyInfectedContribute(c: Country, radius: int, layout: Layout)
    requires RadiusAllowed(radius, c.n)
    ensures InfectedNeighbors(c, radius, layout)
         == InfectedNeighbors(Country(c.n, InfectedOnly(c.people)), radius, layout)
  {
    var d := Country(c.n, InfectedOnly(c.people));
    OffGridInfectedOnly(c);
    forall x, y
      ensures GridAt(c.people, c.n, x, y) == GridAt(d.people, c.n, x, y)
    {
      GridAtInfectedOnly(c.people, c.n, x, y);
    }
    if !InfectedOffGrid(c.people, c.n) && radius <= c.n {
      var fc := seq(c.n, a => seq(c.n, b => Window(c.people, c.n, radius, layout, a, b) as int));
      var fd := seq(c.n, a => seq(c.n, b => Window(d.people, c.n, radius, layout, a, b) as int));
      forall a | 0 <= a < c.n
        ensures fc[a] == fd[a]
      {
        forall b | 0 <= b < c.n
          ensures fc[a][b] == fd[a][b]
        {
          WindowSameGrid(c.people, d.people, c.n, radius, layout, a, b);
        }
      }
      assert fc == fd;
    }
  }

  /** With nobody infected the field is all zero. */
  lemma NoInfectedNoPressure(c: Country, radius: int, layout: Layout)
    requires RadiusAllowed(radius, c.n) && radius <= c.n
    requires forall i :: 0 <= i < |c.people| ==> !c.people[i].state.Infected?
    ensures InfectedNeighbors(c, radius, layout) == Ok(seq(c.n, a => seq(c.n, b => 0)))
  {
    forall a, b | 0 <= a < c.n && 0 <= b < c.n
      ensures Window(c.people, c.n, radius, layout, a, b) == 0
    {
      var w := Width(layout, radius);
      var f := (i, j) => Padded(c.people, c.n, radius, layout, a + i, b + j);
      forall x, y
        ensures GridAt(c.people, c.n, x, y) == GridAt([], c.n, x, y)
      {
        GridAtInfectedOnly(c.people, c.n, x, y);
        assert InfectedOnly(c.people) == [];
      }
      forall i, j | 0 <= i < w && 0 <= j < w
        ensures f(i, j) == 0
      {
        PaddedSameGrid(c.people, [], c.n, radius, layout, a + i, b + j);
      }
      Sum2Zero(w, w, f);
    }
    var fc := seq(c.n, a => seq(c.n, b => Window(c.people, c.n, radius, layout, a, b) as int));
    var zero := seq(c.n, a => seq(c.n, b => 0));
    forall a | 0 <= a < c.n
      ensures fc[a] == zero[a]
    {
    }
    assert fc == zero;
  }
}

=== FILE: neighbours.dfy ===
/** `Country.GetInfectedNeighbors`: the infection-pressure field. The source counts the
    infected people per cell, copies that grid into a padded grid of side N + 2r through
    nine overlapping slice writes, and adds up shifted windows of the padded grid.

    The documented intent is a toroidal Moore count: at cell (a, b), the number of
    infected people within r rows and r columns of it around the torus, itself included.
    The model keeps the code as written (`AsWritten`) next to a repaired layout
    (`Repaired`) and relates both to that intent (`TorusSum`, `NearCount`). */
module Neighbours {
  import opened Results
  import opened Sums
  import opened Torus
  import opened Persons
  import opened Countries

  /** numpy accepts the indices -n .. n-1 on an axis of length n. */
  predicate ValidIndex(i: int, n: int)
  {
    -n <= i < n
  }

  /** The position numpy reads for a valid index: negative indices count from the end. */
  function Wrap(i: int, n: int): int
  {
    if i < 0 then i + n else i
  }

  /** Both coordinates of the person can be used to index an n x n numpy array. */
  predicate Indexable(p: Person, n: int)
  {
    ValidIndex(p.row, n) && ValidIndex(p.col, n)
  }

  /** What one person adds to `Grid[x][y]` (lines 177-179): one if Infected and at (x, y). */
  function Mark(p: Person, n: int, x: int, y: int): nat
  {
    if p.state.Infected? && Indexable(p, n) && Wrap(p.row, n) == x && Wrap(p.col, n) == y then 1 else 0
  }

  /** `Grid[x][y]`: the number of infected people on cell (x, y). It is positive exactly
      when somebody infected stands there, and never more than the number infected. */
  function GridAt(people: seq<Person>, n: int, x: int, y: int): (v: nat)
    ensures v <= CountState(people, I)
  {
    if |people| == 0 then 0
    else
      assert people == [people[0]] + people[1..];
      CountStateCons(people[0], people[1..], I);
      Mark(people[0], n, x, y) + GridAt(people[1..], n, x, y)
  }

  /** The people in state Infected, in list order (line 170). Each infected person appears
      as often as in the population; `InfectedOnlyInOrder` states the order. */
  function InfectedOnly(people: seq<Person>): (qs: seq<Person>)
    ensures forall q :: q in qs ==> q in people && q.state.Infected?
    ensures forall p :: p in people && p.state.Infected? ==> p in qs
    ensures forall q :: multiset(qs)[q] == if q.state.Infected? then multiset(people)[q] else 0
    ensures |qs| == CountState(people, I)
  {
    if |people| == 0 then []
    else
      assert people == [people[0]] + people[1..];
      CountStateCons(people[0], people[1..], I);
      if people[0].state.Infected? then [people[0]] + InfectedOnly(people[1..])
      else InfectedOnly(people[1..])
  }

  /** The infected person at list position i is entry number k of `InfectedOnly`, where k
      is the number of infected people before position i. With the length in the contract
      of `InfectedOnly`, this fixes the filtered list completely. */
  lemma {:induction false} InfectedOnlyInOrder(people: seq<Person>, i: int)
    requires 0 <= i < |people| && people[i].state.Infected?
    ensures CountState(people[..i], I) < |InfectedOnly(people)|
    ensures InfectedOnly(people)[CountState(people[..i], I)] == people[i]
  {
    if i == 0 {
      assert people[..0] == [];
    } else {
      var k := i - 1;
      var tail := people[1..];
      var rest := InfectedOnly(tail);
      var m := if people[0].state.Infected? then 1 else 0;
      InfectedOnlyInOrder(tail, k);
      CountStatePrefixCons(people, i, I);
      assert CountState(people[..i], I) == m + CountState(tail[..k], I);
      var qs := InfectedOnly(people);
      var c := CountState(tail[..k], I);
      assert rest[c] == people[i];
      if m == 1 {
        assert qs == [people[0]] + rest;
        assert qs[1 + c] == rest[c];
      } else {
        assert qs == rest;
      }
    }
  }

  /** Which padding the field is computed with: the code as written, or with the copies
      of the first rows and columns moved to the outer padding and a window of width
      2r + 1. */
  datatype Layout = AsWritten | Repaired

  /** First padded row (and column) that receives the copy of the grid's first r rows
      (columns). Lines 194 and 200 write at N; the bottom (right) padding starts at N + r. */
  function CopyStart(layout: Layout, n: int, r: int): int
  {
    match layout
    case AsWritten => n
    case Repaired => n + r
  }

  /** Width of the summation window: `range(radius + 2)` at lines 218-219, against the
      Moore width 2r + 1. */
  function Width(layout: Layout, r: nat): nat
  {
    match layout
    case AsWritten => r + 2
    case Repaired => 2 * r + 1
  }

  /** `ExtendedGrid[i][j]` after the nine slice writes of lines 185-214, on a padded grid of
      side n + 2r. A later write overwrites an earlier one, so the writes are examined from
      the last to the first; cells no write reaches keep the initial zero. */
  function Padded(people: seq<Person>, n: int, r: int, layout: Layout, i: int, j: int): (v: nat)
    ensures n >= 0 && r >= 0 && !(0 <= i < n + 2 * r && 0 <= j < n + 2 * r) ==> v == 0
  {
    var m := n + 2 * r;
    var e := CopyStart(layout, n, r);
    // line 214: bottom-left corner gets the grid's top-right corner
    if n + r <= i < m && 0 <= j < r then GridAt(people, n, i - n - r, n - r + j)
    // line 211: top-right corner gets the bottom-left corner
    else if 0 <= i < r && n + r <= j < m then GridAt(people, n, n - r + i, j - n - r)
    // line 208: bottom-right corner gets the top-left corner
    else if n + r <= i < m && n + r <= j < m then GridAt(people, n, i - n - r, j - n - r)
    // line 205: top-left corner gets the bottom-right corner
    else if 0 <= i < r && 0 <= j < r then GridAt(people, n, n - r + i, n - r + j)
    // line 200: columns e .. e+r-1 get the first r columns
    else if r <= i < n + r && e <= j < e + r then GridAt(people, n, i - r, j - e)
    // line 197: the left padding gets the last r columns
    else if r <= i < n + r && 0 <= j < r then GridAt(people, n, i - r, n - r + j)
    // line 194: rows e .. e+r-1 get the first r rows
    else if e <= i < e + r && r <= j < n + r then GridAt(people, n, i - e, j - r)
    // line 191: the top padding gets the last r rows
    else if 0 <= i < r && r <= j < n + r then GridAt(people, n, n - r + i, j - r)
    // line 185: the centre gets the grid itself
    else if r <= i < n + r && r <= j < n + r then GridAt(people, n, i - r, j - r)
    else 0
  }

  /** `Neighbors[a][b]`: the sum over the window offsets (i, j) of ExtendedGrid[a+i][b+j]
      (lines 217-220). */
  function Window(people: seq<Person>, n: int, r: nat, layout: Layout, a: int, b: int): nat
  {
    var w := Width(layout, r);
    Sum2(w, w, (i, j) => Padded(people, n, r, layout, a + i, b + j))
  }

  /** A radius the source can be called with on an n x n grid: positive, and not larger
      than one for a 1 x 1 grid (where numpy would broadcast instead of failing). */
  predicate RadiusAllowed(radius: int, n: int)
  {
    n >= 1 && radius >= 1 && (n > 1 || radius == 1)
  }

  /** Some infected person stands where numpy cannot index. */
  predicate InfectedOffGrid(people: seq<Person>, n: int)
  {
    exists i :: 0 <= i < |people| && people[i].state.Infected? && !Indexable(people[i], n)
  }

  /** `Country.GetInfectedNeighbors`. Filling the grid raises IndexError for an infected
      person outside [-N, N); a radius above N makes numpy refuse the slice copies of
      line 191. Otherwise the result is an N x N field of non-negative counts. */
  function InfectedNeighbors(c: Country, radius: int, layout: Layout): (res: Result<seq<seq<int>>, SimError>)
    requires RadiusAllowed(radius, c.n)
    ensures res.Err? <==> InfectedOffGrid(c.people, c.n) || radius > c.n
    ensures res.Err? && InfectedOffGrid(c.people, c.n) ==> res.error == IndexOutOfRange
    ensures res.Err? && !InfectedOffGrid(c.people, c.n) ==> res.error == ShapeMismatch
    ensures res.Ok? ==> |res.value| == c.n
    ensures res.Ok? ==> forall a :: 0 <= a < c.n ==> |res.value[a]| == c.n
    ensures res.Ok? ==> forall a, b :: 0 <= a < c.n && 0 <= b < c.n ==> res.value[a][b] >= 0
  {
    if InfectedOffGrid(c.people, c.n) then Err(IndexOutOfRange)
    else if radius > c.n then Err(ShapeMismatch)
    else Ok(seq(c.n, a => seq(c.n, b => Window(c.people, c.n, radius, layout, a, b) as int)))
  }

  // ---------------------------------------------------------------------------------
  // The documented intent.

  /** Sum of Grid over the w x w cells whose row is a - r .. a - r + w - 1 and whose
      column is b - r .. b - r + w - 1, wrapped around the torus. With w = 2r + 1 this
      is the Moore neighbourhood of (a, b) the docstring describes. */
  function TorusSum(people: seq<Person>, n: int, r: int, a: int, b: int, w: nat): nat
    requires n > 0
  {
    Sum2(w, w, (k, l) => GridAt(people, n, (a + k - r) % n, (b + l - r) % n))
  }

  /** Number of infected people within toroidal Chebyshev distance r of (a, b). */
  function NearCount(people: seq<Person>, n: int, r: int, a: int, b: int): nat
    requires n > 0
  {
    if |people| == 0 then 0
    else
      var p := people[0];
      (if p.state.Infected? && Near(p.row, a, r, n) && Near(p.col, b, r, n) then 1 else 0)
      + NearCount(people[1..], n, r, a, b)
  }
}

=== FILE: persons.dfy ===
/** One inhabitant of the country: the `Person` class of InfectiousDisease.py, with its
    constructor and its three movement rules. Random draws are explicit inputs. */
module Persons {
  import opened Results
  import Torus

  /** Health state. The counter of an Infected person is the source's `Infected_Iters`
      attribute and that of a Recovered person its `Recovered_Iters` attribute: the number
      of updates spent in the state since entering it. A Susceptible person has none. */
  datatype Health = Susceptible | Infected(infectedIters: nat) | Recovered(recoveredIters: nat)

  /** The single-character state name the source stores ('S', 'I' or 'R'). */
  datatype StateName = S | I | R

  /** The move type string; any string other than the three known rules is `Unknown`. */
  datatype MoveType = Random | Drunkard | Isolate | Unknown(name: string)

  /** The string `Move` compares against for each known rule (lines 86, 94 and 109). */
  const KnownNames: set<string> := {"Random", "Drunkard", "Isolate"}

  /** A move type as `ParseMoveType` produces it: `Unknown` never carries a known name. */
  predicate Canonical(m: MoveType)
  {
    m.Unknown? ==> m.name !in KnownNames
  }

  /** The move type the string `MoveType` attribute stands for: the first of the three
      comparisons in `Move` that matches, or none of them. */
  function ParseMoveType(s: string): (m: MoveType)
    ensures Canonical(m)
    ensures m == Random <==> s == "Random"
    ensures m == Drunkard <==> s == "Drunkard"
    ensures m == Isolate <==> s == "Isolate"
    ensures m.Unknown? <==> s !in KnownNames
    ensures m.Unknown? ==> m.name == s
  {
    if s == "Random" then Random
    else if s == "Drunkard" then Drunkard
    else if s == "Isolate" then Isolate
    else Unknown(s)
  }

  /** Location is (row, col); the source keeps it as `Loc = [row, column]`. */
  datatype Person = Person(state: Health, row: int, col: int, moveType: MoveType)

  /** The random values one call of `Move` may consume: a teleport target for a Random
      mover (two `randint(0, N-1)` draws), and an axis and a step for a Drunkard
      (`choice([0, 1])` and `choice([-1, 0, 1])`). */
  datatype MoveDraw = MoveDraw(row: int, col: int, axis: int, delta: int)

  /** The values the random generator can produce for a grid of size n. */
  predicate ValidDraw(d: MoveDraw, n: int)
  {
    && 0 <= d.row < n && 0 <= d.col < n
    && 0 <= d.axis <= 1
    && -1 <= d.delta <= 1
  }

  predicate OnGrid(p: Person, n: int)
  {
    0 <= p.row < n && 0 <= p.col < n
  }

  function NameOf(h: Health): StateName
  {
    match h
    case Susceptible => S
    case Infected(_) => I
    case Recovered(_) => R
  }

  /** `Person.__init__`: a person created Infected or Recovered starts its counter at 0. */
  function NewPerson(name: StateName, row: int, col: int, moveType: MoveType): (p: Person)
    ensures NameOf(p.state) == name
    ensures p.state.Infected? ==> p.state.infectedIters == 0
    ensures p.state.Recovered? ==> p.state.recoveredIters == 0
    ensures p.row == row && p.col == col && p.moveType == moveType
  {
    var state := match name
      case S => Susceptible
      case I => Infected(0)
      case R => Recovered(0);
    Person(state, row, col, moveType)
  }

  /** One coordinate of a Drunkard step: add delta, then the source's hand-written wrap,
      which only catches the two values one step outside [0, n). From a coordinate inside
      [0, n), a step of at most one cell is addition around the torus. */
  function Stagger(x: int, delta: int, n: int): (y: int)
    ensures 0 <= x < n && -1 <= delta <= 1 ==> 0 <= y < n && y == (x + delta) % n
  {
    var y := x + delta;
    if y < 0 then n - 1 else if y == n then 0 else y
  }

  /** `Person.Move`. A Random mover teleports to the drawn cell, a Drunkard steps along
      the drawn axis, an Isolate mover stays put, and any other move type raises. */
  function Move(p: Person, n: int, d: MoveDraw): (res: Result<Person, SimError>)
    requires ValidDraw(d, n)
    ensures res.Err? <==> p.moveType.Unknown?
    ensures res.Err? ==> res.error == UnknownMoveType(p.moveType.name)
    ensures res.Ok? ==> res.value.state == p.state && res.value.moveType == p.moveType
    ensures p.moveType == Random ==> res.Ok? && OnGrid(res.value, n)
    ensures p.moveType == Random ==> res.value.row == d.row && res.value.col == d.col
    ensures p.moveType == Isolate ==> res == Ok(p)
    ensures p.moveType == Drunkard ==>
      && res.Ok?
      && (d.axis == 0 ==> res.value.col == p.col)
      && (d.axis == 1 ==> res.value.row == p.row)
    ensures p.moveType == Drunkard && OnGrid(p, n) ==>
      && res.Ok? && OnGrid(res.value, n)
      && (d.axis == 0 ==> res.value.row == (p.row + d.delta) % n && res.value.col == p.col)
      && (d.axis == 1 ==> res.value.col == (p.col + d.delta) % n && res.value.row == p.row)
  {
    match p.moveType
    case Random => Ok(p.(row := d.row, col := d.col))
    case Drunkard => Ok(StepAxis(p, n, d))
    case Isolate => Ok(p)
    case Unknown(name) => Err(UnknownMoveType(name))
  }

  /** The Drunkard rule: `Loc[ind] += delta` followed by the wrap. */
  function StepAxis(p: Person, n: int, d: MoveDraw): Person
  {
    if d.axis == 0 then p.(row := Stagger(p.row, d.delta, n))
    else p.(col := Stagger(p.col, d.delta, n))
  }
}

=== FILE: results.dfy ===
/** Failure-carrying values for the operations of the simulation engine that the
    source can abort by raising an exception. */
module Results {

  /** Either the value an operation produced or the error it raised. */
  datatype Result<+T, +E> = Ok(value: T) | Err(error: E)

  /** A value that the caller may omit (Python's `None` default arguments). */
  datatype Option<+T> = None | Some(value: T)

  /** The exceptions the engine can raise.
      - UnknownMoveType: `Person.Move` with a move type other than Random, Drunkard or Isolate.
      - IndexOutOfRange: numpy indexing with a position outside [-N, N).
      - ShapeMismatch: numpy refusing to broadcast a slice of the grid into the padding.
      - EmptyPopulation: the division by the population size in a data point of the
        S, I and R series when the country has nobody (ZeroDivisionError). */
  datatype SimError = UnknownMoveType(name: string) | IndexOutOfRange | ShapeMismatch | EmptyPopulation
}

=== FILE: simulations.dfy ===
/** The `Simulation` class without its plotting: the country, the parameters of the
    disease, and the number of frames run so far. One animation frame (the body of `func`
    in `Simulation.Run`) moves everyone, updates everyone, advances the frame counter and
    tallies the population by state. The random values of the frame are parameters. */
module Simulations {
  import opened Results
  import opened Persons
  import opened Countries
  import opened Neighbours
  import opened Transitions
  import opened TransitionLaws

  datatype Simulation = Simulation(country: Country, params: Params, iters: nat)

  /** The head counts of one data point of the S, I and R series (before the division
      by the population). */
  datatype Tally = Tally(susceptible: nat, infected: nat, recovered: nat)

  /** The state of the simulation after a frame, with the tally taken from it. */
  datatype Frame = Frame(next: Simulation, tally: Tally)

  /** The head counts per state; every person is counted exactly once. */
  function TallyOf(people: seq<Person>): (t: Tally)
    ensures t.susceptible + t.infected + t.recovered == |people|
  {
    CountsCoverPopulation(people);
    Tally(CountState(people, S), CountState(people, I), CountState(people, R))
  }

  /** Nobody has a move type `Move` rejects. */
  predicate KnownMoves(c: Country)
  {
    forall i :: 0 <= i < |c.people| ==> !c.people[i].moveType.Unknown?
  }

  /** Somebody stands where numpy cannot index the N x N colour grid. */
  predicate PaintOffGrid(people: seq<Person>, n: int)
  {
    exists i :: 0 <= i < |people| && !Indexable(people[i], n)
  }

  /** A country whose people are all on the grid can be painted. */
  lemma WellPlacedPaints(c: Country)
    ensures WellPlaced(c) ==> !PaintOffGrid(c.people, c.n)
  {
    if WellPlaced(c) {
      forall i | 0 <= i < |c.people|
        ensures Indexable(c.people[i], c.n)
      {
        assert OnGrid(c.people[i], c.n);
      }
    }
  }

  /** The first data point and the first painting of the grid, before any frame
      (lines 327-330 and 383-384): the head counts are divided by the population size,
      which raises for an empty country, and painting raises for a person of any state
      outside [-N, N). */
  function Start(sim: Simulation): (res: Result<Tally, SimError>)
    ensures res.Err? <==> |sim.country.people| == 0 || PaintOffGrid(sim.country.people, sim.country.n)
    ensures res.Err? && |sim.country.people| == 0 ==> res.error == EmptyPopulation
    ensures res.Err? && |sim.country.people| > 0 ==> res.error == IndexOutOfRange
    ensures WellPlaced(sim.country) && |sim.country.people| > 0 ==> res.Ok?
    ensures res.Ok? ==> var t := res.value;
      t.susceptible + t.infected + t.recovered == |sim.country.people|
  {
    if |sim.country.people| == 0 then Err(EmptyPopulation)
    else if PaintOffGrid(sim.country.people, sim.country.n) then Err(IndexOutOfRange)
    else Ok(TallyOf(sim.country.people))
  }

  /** The change of state one frame makes (lines 340-360): `Move_People`, then
      `Update_People` on the moved country; then the data point divides by the population
      size, which raises for an empty country, and the colour grid is painted from
      everyone's location, which raises for a person of any state outside [-N, N). */
  function Step(sim: Simulation, layout: Layout, moves: seq<MoveDraw>, infections: seq<real>)
    : (res: Result<Country, SimError>)
    requires RadiusAllowed(sim.params.radius, sim.country.n)
    requires |moves| == |sim.country.people|
    requires forall i :: 0 <= i < |moves| ==> ValidDraw(moves[i], sim.country.n)
    requires |infections| == CountState(sim.country.people, S)
    ensures !KnownMoves(sim.country) ==> res.Err? && res.error.UnknownMoveType?
    ensures (KnownMoves(sim.country) && WellPlaced(sim.country) && sim.params.radius <= sim.country.n
             && |sim.country.people| > 0) ==> res.Ok?
    ensures res.Ok? ==> res.value.n == sim.country.n && |res.value.people| == |sim.country.people|
    ensures res.Ok? ==> |res.value.people| > 0 && !PaintOffGrid(res.value.people, res.value.n)
  {
    match MovePeople(sim.country, moves)
    case Err(e) => Err(e)
    case Ok(c) =>
      CountStateSameStates(sim.country.people, c.people, S);
      match Updated(c, sim.params, layout, infections)
      case Err(e) => Err(e)
      case Ok(c') =>
        WellPlacedPaints(c');
        if |c'.people| == 0 then Err(EmptyPopulation)
        else if PaintOffGrid(c'.people, c'.n) then Err(IndexOutOfRange)
        else Ok(c')
  }

  /** One frame: `Move_People`, then `Update_People` with the simulation's parameters,
      then `iters += 1`, the tally of the new state, and the painting of the colour grid.
      `moves` holds one move draw per person and `infections` one `random()` value per
      Susceptible person. */
  method RunFrame(sim: Simulation, layout: Layout, moves: seq<MoveDraw>, infections: seq<real>)
    returns (res: Result<Frame, SimError>)
    requires RadiusAllowed(sim.params.radius, sim.country.n)
    requires |moves| == |sim.country.people|
    requires forall i :: 0 <= i < |moves| ==> ValidDraw(moves[i], sim.country.n)
    requires |infections| == CountState(sim.country.people, S)
    ensures res.Err? <==> Step(sim, layout, moves, infections).Err?
    ensures res.Ok? ==> res.value.next.country == Step(sim, layout, moves, infections).value
    ensures !KnownMoves(sim.country) ==> res.Err? && res.error.UnknownMoveType?
    ensures (KnownMoves(sim.country) && WellPlaced(sim.country) && sim.params.radius <= sim.country.n
             && |sim.country.people| > 0) ==> res.Ok?
    ensures res.Ok? ==> var next := res.value.next;
      && next.iters == sim.iters + 1
      && next.params == sim.params
      && next.country.n == sim.country.n
      && |next.country.people| == |sim.country.people|
      && res.value.tally == TallyOf(next.country.people)
    ensures res.Ok? ==> var t := res.value.tally;
      t.susceptible + t.infected + t.recovered == |sim.country.people|
    ensures res.Ok? && WellPlaced(sim.country) ==> WellPlaced(res.value.next.country)
    ensures res.Ok? && sim.params.infectedIters >= 1 && sim.params.recoveredIters >= 1
      && CountersBelow(sim.country.people, sim.params)
      ==> CountersBelow(res.value.next.country.people, sim.params)
  {
    var moved := MovePeople(sim.country, moves);
    if moved.Err? {
      return Err(moved.error);
    }
    var c := moved.value;
    CountStateSameStates(sim.country.people, c.people, S);
    var updated := UpdatePeople(c, sim.params, layout, infections);
    if updated.Err? {
      return Err(updated.error);
    }
    var c' := updated.value;
    var next := Simulation(c', sim.params, sim.iters + 1);
    var tally := TallyOf(c'.people);
    if |c'.people| == 0 {
      return Err(EmptyPopulation);
    }
    var offGrid := FindOffGrid(c'.people, c'.n);
    if offGrid {
      return Err(IndexOutOfRange);
    }
    assert Step(sim, layout, moves, infections) == Ok(c');
    res := Ok(Frame(next, tally));
  }

  /** The painting loop of lines 359-360: whether it reaches a person it cannot place. */
  method FindOffGrid(people: seq<Person>, n: int) returns (found: bool)
    ensures found <==> PaintOffGrid(people, n)
  {
    var i := 0;
    while i < |people|
      invariant 0 <= i <= |people|
      invariant forall j :: 0 <= j < i ==> Indexable(people[j], n)
    {
      if !Indexable(people[i], n) {
        return true;
      }
      i := i + 1;
    }
    return false;
  }
}

=== FILE: sums.dfy ===
/** Finite sums of natural numbers, used to state the window sums of the
    infected-neighbour field and the toroidal counts they are compared with. */
module Sums {

  /** f(0) + f(1) + ... + f(w-1). */
  function Sum(w: nat, f: int -> nat): nat
  {
    if w == 0 then 0 else Sum(w - 1, f) + f(w - 1)
  }

  /** The sum of f(i, j) over 0 <= j < w, for one fixed i. */
  function RowSum(w: nat, f: (int, int) -> nat, i: int): nat
  {
    Sum(w, j => f(i, j))
  }

  /** The sum of f(i, j) over 0 <= i < h and 0 <= j < w. */
  function Sum2(h: nat, w: nat, f: (int, int) -> nat): nat
  {
    Sum(h, i => RowSum(w, f, i))
  }

  /** Sums of functions that agree on the summation range are equal. */
  lemma {:induction false} SumExt(w: nat, f: int -> nat, g: int -> nat)
    requires forall k :: 0 <= k < w ==> f(k) == g(k)
    ensures Sum(w, f) == Sum(w, g)
  {
    if w > 0 {
      SumExt(w - 1, f, g);
    }
  }

  /** Summation distributes over pointwise addition. */
  lemma {:induction false} SumAdd(w: nat, f: int -> nat, g: int -> nat, h: int -> nat)
    requires forall k :: 0 <= k < w ==> h(k) == f(k) + g(k)
    ensures Sum(w, h) == Sum(w, f) + Sum(w, g)
  {
    if w > 0 {
      SumAdd(w - 1, f, g, h);
    }
  }

  /** A sum of zeros is zero. */
  lemma {:induction false} SumZero(w: nat, f: int -> nat)
    requires forall k :: 0 <= k < w ==> f(k) == 0
    ensures Sum(w, f) == 0
  {
    if w > 0 {
      SumZero(w - 1, f);
    }
  }

  /** Summing the indicator of one index counts whether that index is in range. */
  lemma {:induction false} SumIndicator(w: nat, f: int -> nat, d: int)
    requires forall k :: 0 <= k < w ==> f(k) == (if k == d then 1 else 0)
    ensures Sum(w, f) == (if 0 <= d < w then 1 else 0)
  {
    if w > 0 {
      SumIndicator(w - 1, f, d);
    }
  }

  lemma Sum2Ext(h: nat, w: nat, f: (int, int) -> nat, g: (int, int) -> nat)
    requires forall i, j :: 0 <= i < h && 0 <= j < w ==> f(i, j) == g(i, j)
    ensures Sum2(h, w, f) == Sum2(h, w, g)
  {
    forall i | 0 <= i < h
      ensures RowSum(w, f, i) == RowSum(w, g, i)
    {
      SumExt(w, j => f(i, j), j => g(i, j));
    }
    SumExt(h, i => RowSum(w, f, i), i => RowSum(w, g, i));
  }

  lemma Sum2Add(h: nat, w: nat, f: (int, int) -> nat, g: (int, int) -> nat, s: (int, int) -> nat)
    requires forall i, j :: 0 <= i < h && 0 <= j < w ==> s(i, j) == f(i, j) + g(i, j)
    ensures Sum2(h, w, s) == Sum2(h, w, f) + Sum2(h, w, g)
  {
    forall i | 0 <= i < h
      ensures RowSum(w, s, i) == RowSum(w, f, i) + RowSum(w, g, i)
    {
      SumAdd(w, j => f(i, j), j => g(i, j), j => s(i, j));
    }
    SumAdd(h, i => RowSum(w, f, i), i => RowSum(w, g, i), i => RowSum(w, s, i));
  }

  lemma Sum2Zero(h: nat, w: nat, f: (int, int) -> nat)
    requires forall i, j :: 0 <= i < h && 0 <= j < w ==> f(i, j) == 0
    ensures Sum2(h, w, f) == 0
  {
    forall i | 0 <= i < h
      ensures RowSum(w, f, i) == 0
    {
      SumZero(w, j => f(i, j));
    }
    SumZero(h, i => RowSum(w, f, i));
  }

  /** A sum of w terms, each at most k, is at most w * k. */
  lemma {:induction false} SumBound(w: nat, f: int -> nat, k: nat)
    requires forall i :: 0 <= i < w ==> f(i) <= k
    ensures Sum(w, f) <= w * k
  {
    if w > 0 {
      SumBound(w - 1, f, k);
      assert (w - 1) * k + k == w * k;
    }
  }

  /** A sum over an h x w rectangle of terms at most k is at most h * w * k. */
  lemma Sum2Bound(h: nat, w: nat, f: (int, int) -> nat, k: nat)
    requires forall i, j :: 0 <= i < h && 0 <= j < w ==> f(i, j) <= k
    ensures Sum2(h, w, f) <= h * (w * k)
  {
    forall i | 0 <= i < h
      ensures RowSum(w, f, i) <= w * k
    {
      SumBound(w, j => f(i, j), k);
    }
    SumBound(h, i => RowSum(w, f, i), w * k);
  }

  /** Summing the indicator of one cell counts whether that cell is in the rectangle. */
  lemma Sum2Point(h: nat, w: nat, f: (int, int) -> nat, di: int, dj: int)
    requires forall i, j :: 0 <= i < h && 0 <= j < w ==> f(i, j) == (if i == di && j == dj then 1 else 0)
    ensures Sum2(h, w, f) == (if 0 <= di < h && 0 <= dj < w then 1 else 0)
  {
    var inRow := if 0 <= dj < w then 1 else 0;
    forall i | 0 <= i < h
      ensures RowSum(w, f, i) == (if i == di then inRow else 0)
    {
      if i == di {
        SumIndicator(w, j => f(i, j), dj);
      } else {
        SumZero(w, j => f(i, j));
      }
    }
    if inRow == 1 {
      SumIndicator(h, i => RowSum(w, f, i), di);
    } else {
      SumZero(h, i => RowSum(w, f, i));
    }
  }
}

=== FILE: torus.dfy ===
/** Arithmetic on the N x N torus: remainders, the circular distance between two
    indices, and the window offsets that reach a given index. Dafny's `%` is
    Euclidean, so `x % n` is the index in [0, n) that x wraps to. */
module Torus {

  /** The remainder is determined by any decomposition v == q * n + s with 0 <= s < n. */
  lemma ModUnique(v: int, n: int, q: int, s: int)
    requires n > 0 && 0 <= s < n && v == q * n + s
    ensures v % n == s
  {
    var q', s' := v / n, v % n;
    assert v == q' * n + s';
    if q' < q {
      assert q * n - q' * n == (q - q') * n;
      MulAtLeast(q - q', n);
    } else if q' > q {
      assert q' * n - q * n == (q' - q) * n;
      MulAtLeast(q' - q, n);
    }
  }

  lemma MulAtLeast(k: int, n: int)
    requires k >= 1 && n > 0
    ensures k * n >= n
  {
  }

  /** The remainder of an index at most one turn outside [0, n). */
  lemma ModNear(v: int, n: int)
    requires n > 0 && -n <= v < 2 * n
    ensures v % n == (if v < 0 then v + n else if v < n then v else v - n)
  {
    if v < 0 {
      ModUnique(v, n, -1, v + n);
    } else if v < n {
      ModUnique(v, n, 0, v);
    } else {
      ModUnique(v, n, 1, v - n);
    }
  }

  /** Adding to an index and wrapping gives the same as wrapping first. */
  lemma ModShift(v: int, k: int, n: int)
    requires n > 0
    ensures (v + k) % n == (v % n + k) % n
  {
    var q, s := v / n, v % n;
    var q2, s2 := (s + k) / n, (s + k) % n;
    assert v + k == (q + q2) * n + s2 by {
      assert (q + q2) * n == q * n + q2 * n;
    }
    ModUnique(v + k, n, q + q2, s2);
  }

  /** Circular distance between indices x and a on a ring of n cells. */
  function TorusDist(x: int, a: int, n: int): (d: int)
    requires n > 0
  {
    var up := (x - a) % n;
    var down := (a - x) % n;
    if up <= down then up else down
  }

  /** x lies within r steps of a around the ring. */
  predicate Near(x: int, a: int, r: int, n: int)
    requires n > 0
  {
    TorusDist(x, a, n) <= r
  }

  /** The remainder of -v is the complement of the remainder of v. */
  lemma NegMod(v: int, n: int)
    requires n > 0
    ensures (-v) % n == (if v % n == 0 then 0 else n - v % n)
  {
    var s := v % n;
    assert v == (v / n) * n + s;
    if s == 0 {
      ModUnique(-v, n, -(v / n), 0);
    } else {
      ModUnique(-v, n, -(v / n) - 1, n - s);
    }
  }

  /** For windows no wider than the ring, the window offset k in [0, n) reaches x from a
      (that is, (a + k - r) wraps to x) for exactly one k, namely (x - a + r) % n. */
  lemma OffsetHit(a: int, k: int, r: int, x: int, n: int)
    requires n > 0 && 0 <= k < n && 0 <= x < n
    ensures ((a + k - r) % n == x) <==> k == (x - a + r) % n
  {
    var s := (a - r) % n;
    var t := (-(a - r)) % n;
    ModShift(a - r, k, n);
    ModNear(s + k, n);
    ModShift(-(a - r), x, n);
    ModNear(t + x, n);
    NegMod(a - r, n);
    OffsetCases(n, s, k, x, (a + k - r) % n, (x - a + r) % n);
  }

  /** `OffsetHit` once the remainders are resolved: u is s + k wrapped once, v is the
      complement of s plus x wrapped once. */
  lemma OffsetCases(n: int, s: int, k: int, x: int, u: int, v: int)
    requires 0 <= s < n && 0 <= k < n && 0 <= x < n
    requires u == (if s + k < n then s + k else s + k - n)
    requires var t := if s == 0 then 0 else n - s;
      v == (if t + x < n then t + x else t + x - n)
    ensures u == x <==> k == v
  {
  }

  /** With 2r + 1 <= n, x is within r of a exactly when the offset that reaches x
      falls inside the window of width 2r + 1. */
  lemma NearIffOffset(x: int, a: int, r: int, n: int)
    requires r >= 0 && 2 * r + 1 <= n
    ensures Near(x, a, r, n) <==> (x - a + r) % n <= 2 * r
  {
    var e := (x - a) % n;
    ModShift(x - a, r, n);
    ModNear(e + r, n);
    if e == 0 {
      ModUnique(a - x, n, -((x - a) / n), 0);
    } else {
      ModUnique(a - x, n, -((x - a) / n) - 1, n - e);
    }
  }
}

=== FILE: transition_laws.dfy ===
/** Properties of one round of `Update_People`: when a Susceptible person is or is not
    infected, why an epidemic that has died out stays dead, and a worked example of the
    order in which the field and the passes are taken. */
module TransitionLaws {
  import opened Results
  import opened Persons
  import opened Countries
  import opened Neighbours
  import opened NeighbourLaws
  import opened Transitions
  import Torus

  /** Every value `random()` can return. */
  predicate UnitDraws(draws: seq<real>)
  {
    forall k :: 0 <= k < |draws| ==> 0.0 <= draws[k] < 1.0
  }

  /** A Susceptible person with no infected neighbour stays Susceptible whatever the draw;
      one whose pressure times risk is at least one is infected whatever the draw; and an
      infection always starts the counter at 0. */
  lemma SusceptibleFate(c: Country, params: Params, layout: Layout, draws: seq<real>, i: int)
    requires RadiusAllowed(params.radius, c.n)
    requires |draws| == CountState(c.people, S) && UnitDraws(draws)
    requires Updated(c, params, layout, draws).Ok?
    requires 0 <= i < |c.people| && c.people[i].state.Susceptible?
    ensures var after := Updated(c, params, layout, draws).value.people[i];
      var nI := PressureAt(InfectedNeighbors(c, params.radius, layout).value, c.n, c.people[i]);
      && (after.state == Susceptible || after.state == Infected(0))
      && (nI == 0 ==> after == c.people[i])
      && ((nI as real) * params.risk >= 1.0 ==> after.state == Infected(0))
  {
    CountStatePrefix(c.people, i, S);
  }

  /** Once nobody is Infected nobody becomes Infected: with every draw in [0, 1) the field
      is zero everywhere, so no Susceptible person can satisfy u < nI * risk. */
  lemma ExtinctionIsFinal(c: Country, params: Params, layout: Layout, draws: seq<real>)
    requires RadiusAllowed(params.radius, c.n)
    requires |draws| == CountState(c.people, S) && UnitDraws(draws)
    requires forall i :: 0 <= i < |c.people| ==> !c.people[i].state.Infected?
    requires Updated(c, params, layout, draws).Ok?
    ensures var after := Updated(c, params, layout, draws).value.people;
      forall i :: 0 <= i < |after| ==> !after[i].state.Infected?
  {
    NoInfectedNoPressure(c, params.radius, layout);
    var after := Updated(c, params, layout, draws).value.people;
    forall i | 0 <= i < |after|
      ensures !after[i].state.Infected?
    {
      if c.people[i].state.Susceptible? {
        SusceptibleFate(c, params, layout, draws, i);
      }
    }
  }

  /** In the example below, the Susceptible person has one infected neighbour. */
  lemma ExamplePressure(mt: MoveType, layout: Layout)
    ensures var c := Country(10, [Person(Infected(0), 5, 5, mt), Person(Susceptible, 5, 6, mt)]);
      && InfectedNeighbors(c, 1, layout).Ok?
      && PressureAt(InfectedNeighbors(c, 1, layout).value, 10, c.people[1]) == 1
  {
    var c := Country(10, [Person(Infected(0), 5, 5, mt), Person(Susceptible, 5, 6, mt)]);
    assert NearCount(c.people, 10, 1, 5, 6) == 1 by {
      assert Torus.TorusDist(5, 5, 10) == 0 && Torus.TorusDist(5, 6, 10) == 1;
      assert c.people[1..][1..] == [];
      assert NearCount(c.people[1..], 10, 1, 5, 6) == 0;
    }
    if layout == AsWritten {
      AsWrittenRadiusOneCorrect(c, 5, 6);
    } else {
      RepairedCountsNear(c, 1);
    }
  }

  /** The field is taken before any transition. On a 10 x 10 grid with radius 1 and risk 1,
      an Infected person at (5, 5) whose infection lasts one update, next to a Susceptible
      person at (5, 6): in the same update the first recovers and still infects the second.
      This holds for both layouts. */
  lemma PressureTakenBeforeRecovery(u: real, mt: MoveType, layout: Layout)
    requires 0.0 <= u < 1.0
    ensures CountState([Person(Infected(0), 5, 5, mt), Person(Susceptible, 5, 6, mt)], S) == 1
    ensures var c := Country(10, [Person(Infected(0), 5, 5, mt), Person(Susceptible, 5, 6, mt)]);
      Updated(c, Params(1.0, 1, 1, 1000000000), layout, [u])
        == Ok(Country(10, [Person(Recovered(0), 5, 5, mt), Person(Infected(0), 5, 6, mt)]))
  {
    var c := Country(10, [Person(Infected(0), 5, 5, mt), Person(Susceptible, 5, 6, mt)]);
    var params := Params(1.0, 1, 1, 1000000000);
    assert c.people[..1] == [c.people[0]];
    assert CountState(c.people[..1], S) == 0;
    assert c.people[..2] == c.people;
    assert CountState(c.people, S) == 1;
    ExamplePressure(mt, layout);
    var field := InfectedNeighbors(c, 1, layout).value;
    assert !SusceptibleOffGrid(c.people, 10);
    var after := AllAfter(c.people, 10, field, [u], params);
    assert after[0] == Person(Recovered(0), 5, 5, mt);
    assert after[1] == Person(Infected(0), 5, 6, mt);
    assert after == [Person(Recovered(0), 5, 5, mt), Person(Infected(0), 5, 6, mt)];
    assert Updated(c, params, layout, [u]) == Ok(Country(10, after));
  }
}

=== FILE: transitions.dfy ===
/** `Country.Update_People`: one round of state transitions. The people are partitioned by
    state first, the pressure field is computed from that snapshot, and then the Infected,
    the Susceptible and the Recovered people of the snapshot are updated in three passes.
    `random()` is replaced by `draws`, one value per Susceptible person in list order. */
module Transitions {
  import opened Results
  import opened Persons
  import opened Countries
  import opened Neighbours

  /** The arguments of `Update_People`: infection risk per infected neighbour, radius of
      the neighbourhood, and the number of updates spent Infected and Recovered. */
  datatype Params = Params(risk: real, radius: int, infectedIters: int, recoveredIters: int)

  /** The state a person moves to by one transition of the S -> I -> R -> S cycle. */
  function Successor(name: StateName): StateName
  {
    match name
    case S => I
    case I => R
    case R => S
  }

  /** The counters stay below their thresholds. */
  predicate CountersBelow(people: seq<Person>, params: Params)
  {
    forall i :: 0 <= i < |people| ==>
      && (people[i].state.Infected? ==> people[i].state.infectedIters < params.infectedIters)
      && (people[i].state.Recovered? ==> people[i].state.recoveredIters < params.recoveredIters)
  }

  /** Infected pass (lines 241-244): one more update spent infected; on reaching
      `Infected_Iters` the person recovers with a fresh counter. */
  function AfterInfected(p: Person, params: Params): (q: Person)
    requires p.state.Infected?
    ensures q.row == p.row && q.col == p.col && q.moveType == p.moveType
    ensures q.state.Recovered? <==> p.state.infectedIters + 1 == params.infectedIters
    ensures q.state.Recovered? ==> q.state.recoveredIters == 0
    ensures !q.state.Recovered? ==> q.state == Infected(p.state.infectedIters + 1)
  {
    var k := p.state.infectedIters + 1;
    if k == params.infectedIters then p.(state := Recovered(0)) else p.(state := Infected(k))
  }

  /** Susceptible pass (lines 248-253): with nI infected neighbours and the drawn u, the
      person is infected when u < nI * risk. */
  function AfterSusceptible(p: Person, nI: int, u: real, params: Params): (q: Person)
    requires p.state.Susceptible?
    ensures q.row == p.row && q.col == p.col && q.moveType == p.moveType
    ensures q.state.Infected? <==> u < (nI as real) * params.risk
    ensures q.state.Infected? ==> q.state.infectedIters == 0
    ensures !q.state.Infected? ==> q == p
  {
    if u < (nI as real) * params.risk then p.(state := Infected(0)) else p
  }

  /** Recovered pass (lines 257-259): on reaching `Recovered_Iters` the person becomes
      Susceptible again. */
  function AfterRecovered(p: Person, params: Params): (q: Person)
    requires p.state.Recovered?
    ensures q.row == p.row && q.col == p.col && q.moveType == p.moveType
    ensures q.state.Susceptible? <==> p.state.recoveredIters + 1 == params.recoveredIters
    ensures !q.state.Susceptible? ==> q.state == Recovered(p.state.recoveredIters + 1)
  {
    var k := p.state.recoveredIters + 1;
    if k == params.recoveredIters then p.(state := Susceptible) else p.(state := Recovered(k))
  }

  /** The field has the N x N shape `GetInfectedNeighbors` returns. */
  predicate FieldShaped(field: seq<seq<int>>, n: int)
  {
    |field| == n && forall a :: 0 <= a < n ==> |field[a]| == n
  }

  /** `Neighbors[row][col]` for the person's location (line 249). */
  function PressureAt(field: seq<seq<int>>, n: int, p: Person): int
    requires FieldShaped(field, n) && Indexable(p, n)
  {
    field[Wrap(p.row, n)][Wrap(p.col, n)]
  }

  /** Some Susceptible person stands where `Neighbors[row][col]` raises IndexError. */
  predicate SusceptibleOffGrid(people: seq<Person>, n: int)
  {
    exists i :: 0 <= i < |people| && people[i].state.Susceptible? && !Indexable(people[i], n)
  }

  /** Reference for the update of the person at index i: the rule of the state the person
      had when the update began, the field, and, for a Susceptible person, the draw whose
      position is the number of Susceptible people before it in the list. */
  function PersonAfter(people: seq<Person>, n: int, field: seq<seq<int>>, draws: seq<real>,
                       params: Params, i: int): (q: Person)
    requires 0 <= i < |people| && FieldShaped(field, n)
    requires |draws| == CountState(people, S)
    requires people[i].state.Susceptible? ==> Indexable(people[i], n)
    // the location and the move type never change
    ensures q.row == people[i].row && q.col == people[i].col && q.moveType == people[i].moveType
    // at most one step of the S -> I -> R -> S cycle
    ensures NameOf(q.state) == NameOf(people[i].state) || NameOf(q.state) == Successor(NameOf(people[i].state))
    // counters rise by one and trigger exactly at their thresholds; infection starts at 0
    ensures var before := people[i].state;
      && (before.Infected? ==>
            && (q.state.Recovered? <==> before.infectedIters + 1 == params.infectedIters)
            && (q.state.Recovered? ==> q.state.recoveredIters == 0)
            && (!q.state.Recovered? ==> q.state == Infected(before.infectedIters + 1)))
      && (before.Recovered? ==>
            && (q.state.Susceptible? <==> before.recoveredIters + 1 == params.recoveredIters)
            && (!q.state.Susceptible? ==> q.state == Recovered(before.recoveredIters + 1)))
      && (before.Susceptible? ==> q.state == Susceptible || q.state == Infected(0))
  {
    var p := people[i];
    match p.state
    case Infected(_) => AfterInfected(p, params)
    case Recovered(_) => AfterRecovered(p, params)
    case Susceptible =>
      CountStatePrefix(people, i, S);
      AfterSusceptible(p, PressureAt(field, n, p), draws[CountState(people[..i], S)], params)
  }

  /** Every person updated by `PersonAfter`. */
  function AllAfter(people: seq<Person>, n: int, field: seq<seq<int>>, draws: seq<real>,
                    params: Params): (qs: seq<Person>)
    requires FieldShaped(field, n)
    requires |draws| == CountState(people, S)
    requires !SusceptibleOffGrid(people, n)
  {
    seq(|people|, i requires 0 <= i < |people| => PersonAfter(people, n, field, draws, params, i))
  }

  /** Reference for the whole update: the errors the source can raise, or every person
      updated by `PersonAfter` against the field of the state before the update. */
  function Updated(c: Country, params: Params, layout: Layout, draws: seq<real>): (res: Result<Country, SimError>)
    requires RadiusAllowed(params.radius, c.n)
    requires |draws| == CountState(c.people, S)
    ensures res.Err? <==>
      InfectedOffGrid(c.people, c.n) || params.radius > c.n || SusceptibleOffGrid(c.people, c.n)
    ensures WellPlaced(c) && params.radius <= c.n ==> res.Ok?
    ensures res.Ok? ==> res.value.n == c.n && |res.value.people| == |c.people|
    ensures res.Ok? && WellPlaced(c) ==> WellPlaced(res.value)
    ensures (res.Ok? && params.infectedIters >= 1 && params.recoveredIters >= 1
             && CountersBelow(c.people, params)) ==> CountersBelow(res.value.people, params)
  {
    match InfectedNeighbors(c, params.radius, layout)
    case Err(e) => Err(e)
    case Ok(field) =>
      if SusceptibleOffGrid(c.people, c.n) then Err(IndexOutOfRange)
      else Ok(Country(c.n, AllAfter(c.people, c.n, field, draws, params)))
  }

  /** The Infected pass (lines 240-244) over the people that were Infected in the snapshot. */
  method InfectedPass(before: seq<Person>, params: Params) returns (people: seq<Person>)
    ensures |people| == |before|
    ensures forall j :: 0 <= j < |before| ==>
      people[j] == (if before[j].state.Infected? then AfterInfected(before[j], params) else before[j])
  {
    people := before;
    var i := 0;
    while i < |before|
      invariant 0 <= i <= |before| && |people| == |before|
      invariant forall j :: 0 <= j < i && before[j].state.Infected? ==> people[j] == AfterInfected(before[j], params)
      invariant forall j :: 0 <= j < |before| && (i <= j || !before[j].state.Infected?) ==> people[j] == before[j]
    {
      if before[i].state.Infected? {
        people := people[i := AfterInfected(people[i], params)];
      }
      i := i + 1;
    }
  }

  /** The Susceptible pass (lines 247-253) over the people that were Susceptible in the
      snapshot, consuming one draw each; an unindexable location raises IndexError. */
  method SusceptiblePass(before: seq<Person>, current: seq<Person>, n: int, field: seq<seq<int>>,
                         draws: seq<real>, params: Params) returns (res: Result<seq<Person>, SimError>)
    requires FieldShaped(field, n)
    requires |draws| == CountState(before, S)
    requires |current| == |before|
    requires forall j :: 0 <= j < |before| && before[j].state.Susceptible? ==> current[j] == before[j]
    ensures res.Err? <==> SusceptibleOffGrid(before, n)
    ensures res.Err? ==> res.error == IndexOutOfRange
    ensures res.Ok? ==> |res.value| == |before|
    ensures res.Ok? ==> forall j :: 0 <= j < |before| ==>
      res.value[j] == (if before[j].state.Susceptible? then PersonAfter(before, n, field, draws, params, j) else current[j])
  {
    var people := current;
    // the number of values `random()` has returned so far
    var used := 0;
    var i := 0;
    while i < |before|
      invariant 0 <= i <= |before| && |people| == |before|
      invariant used == CountState(before[..i], S)
      invariant forall j :: 0 <= j < i && before[j].state.Susceptible? ==> Indexable(before[j], n)
      invariant forall j :: 0 <= j < i && before[j].state.Susceptible? ==>
        people[j] == PersonAfter(before, n, field, draws, params, j)
      invariant forall j :: 0 <= j < |before| && (i <= j || !before[j].state.Susceptible?) ==> people[j] == current[j]
    {
      CountStateStep(before, i, S);
      if before[i].state.Susceptible? {
        var p := people[i];
        if !Indexable(p, n) {
          return Err(IndexOutOfRange);
        }
        CountStatePrefix(before, i, S);
        people := people[i := AfterSusceptible(p, PressureAt(field, n, p), draws[used], params)];
        used := used + 1;
      }
      i := i + 1;
    }
    return Ok(people);
  }

  /** The Recovered pass (lines 256-259) over the people that were Recovered in the snapshot. */
  method RecoveredPass(before: seq<Person>, current: seq<Person>, params: Params) returns (people: seq<Person>)
    requires |current| == |before|
    requires forall j :: 0 <= j < |before| && before[j].state.Recovered? ==> current[j] == before[j]
    ensures |people| == |before|
    ensures forall j :: 0 <= j < |before| ==>
      people[j] == (if before[j].state.Recovered? then AfterRecovered(before[j], params) else current[j])
  {
    people := current;
    var i := 0;
    while i < |before|
      invariant 0 <= i <= |before| && |people| == |before|
      invariant forall j :: 0 <= j < i && before[j].state.Recovered? ==> people[j] == AfterRecovered(before[j], params)
      invariant forall j :: 0 <= j < |before| && (i <= j || !before[j].state.Recovered?) ==> people[j] == current[j]
    {
      if before[i].state.Recovered? {
        people := people[i := AfterRecovered(people[i], params)];
      }
      i := i + 1;
    }
  }

  /** `Country.Update_People`: the snapshot, the field, then the three passes in source order. */
  method UpdatePeople(c: Country, params: Params, layout: Layout, draws: seq<real>)
    returns (res: Result<Country, SimError>)
    requires RadiusAllowed(params.radius, c.n)
    requires |draws| == CountState(c.people, S)
    ensures res == Updated(c, params, layout, draws)
  {
    var n := c.n;
    // lines 232-234: the partition is taken once, before any transition
    var before := c.people;
    // line 237: so is the field
    var computed := InfectedNeighbors(c, params.radius, layout);
    if computed.Err? {
      return Err(computed.error);
    }
    var field := computed.value;
    var afterI := InfectedPass(before, params);
    var afterS := SusceptiblePass(before, afterI, n, field, draws, params);
    if afterS.Err? {
      return Err(afterS.error);
    }
    var afterR := RecoveredPass(before, afterS.value, params);
    forall j | 0 <= j < |before|
      ensures afterR[j] == PersonAfter(before, n, field, draws, params, j)
    {
    }
    assert afterR == AllAfter(before, n, field, draws, params);
    res := Ok(Country(n, afterR));
  }
}
